=== FILE: README.md ===
# ReactNative-ChatApp server core, in Dafny

A model of the Node.js chat server behind the ReactNative-ChatApp client. It covers:

- the Socket.IO handshake gate, which verifies a JWT and attaches `socket.user`;
- the per-user registry of live sockets, with the `presence:online` and `presence:offline` broadcasts;
- the `message:send` relay, with the find-or-create conversation resolver it shares with the REST route;
- the `typing:start` and `typing:stop` relay;
- the `message:read` receipt handler;
- the bearer-header `auth` middleware;
- the conversation REST routes: list, paged messages, and find-or-create `with/:userId`;
- the `/register` and `/login` routes.

Every handler is a pure function from the server state and its input to the new state and the events it emits. An event is `Emit(target, name, payload)`, where the target is one user's room, the originating socket, or everybody. Each socket joins the room named after its user id, so a room emit reaches every connection of that user. A route returns a `Reply`: either a status with a JSON body, or `Crash` for a handler that throws or whose promise rejects. The source pins neither the Express nor the Node version. Express 5 answers 500 for a rejected handler. Under Express 4 the rejection is unhandled, and from Node 15 on an unhandled rejection ends the whole process. Examples are a bad or expired bearer token (server/middleware/auth.js:15) and a failed registration (server/routes/auth.js:23). The model records `Crash` and leaves the consequence open: process termination is not modelled (see "## Left out").

The code calls out to JWT sign/verify, bcrypt hash/compare and ObjectId validity. These are fields of an `Env` value of function values, and every contract holds for any choice of them. Where a property depends on how the signer behaves, the lemma assumes an idealised signer (`Types.SignVerifies`): its tokens verify to exactly the claims they were signed with, plus at most `iat` and `exp`.

Layout, one module per file:

- `types.dfy`: JavaScript values (`undefined` as `None`, truthiness, `String(v)`, claim access) and `Env`.
- `text.dfy`: ASCII `toLowerCase`, `split(' ')`, `parseInt`.
- `sorting.dfy`: an insertion sort standing for `.sort({field: ±1})`; ties come out in store order.
- `model.dfy`: the Mongoose documents (`User`, `Conversation`, `Message`), their lookups, and the presence write.
- `registry.dfy`: the `userSockets` map of sets.
- `events.dfy`: emitted events and which sockets receive them.
- `http.dfy`: route replies.
- `gates.dfy`: the socket handshake gate and the `auth` middleware.
- `resolver.dfy`: find, create, re-find.
- `socket.dfy`: the connection handlers.
- `routes.dfy`: the conversation routes.
- `accounts.dfy`: register and login.

Assumptions about the libraries, stated once:

- **Undefined user id in a filter:** a Mongo filter whose user id is `undefined` matches no document.
- **Invalid id string:** a filter or update given an invalid id string throws a cast error. Each handler's own catch then takes over. For `message:read` and the presence writes, the catch means nothing further happens. For the list route, it means 500.
- **Negative skip:** the database rejects it, giving 500.
- **Negative limit:** the driver treats it as its absolute value.
- **Presence writes:** they set `lastSeen`, which is not a schema path; the schema's field is `lastseen`. Strict mode drops the unknown key, so a presence write changes only `online`.
- **`new ObjectId(undefined)`:** it generates a fresh id, which `message:send` takes as a parameter.
- **Concurrency:** each handler runs as one atomic step. The only interleaving kept is the one the resolver guards against. Other connections may insert conversations between its find and its create, and its own create may fail (`Resolver.Race`).

## Model

| member | source | states |
|---|---|---|
| Gates.SocketGate | server/index.js:53-64 | The gate refuses with "Unauthorized: no token" exactly when both the auth and the query token are missing or empty. It refuses with "Unauthorized: invalid token" exactly when the token it picked (auth first) fails to verify. Otherwise it accepts, and the user is `{id: claims.userId, email: claims.email}` of the picked token. |
| Gates.AuthTokenWins | server/index.js:55 | When an auth token is present, the query token has no influence on the outcome. |
| Socket.OnConnect | server/index.js:69-84 | The registry becomes the old one with this socket added to its user's set. Messages and conversations are untouched. `presence:online` goes to everybody on every connect, not just the first: it is emitted exactly when the presence write does not throw, and it coincides with `online` being set to true. |
| Registry.Add | server/index.js:74-75 | The user's set afterwards is the old set plus this socket, created when missing. Every other user's entry is unchanged. The invariants "no empty set" and "no socket under two users" are preserved. |
| Registry.Remove | server/index.js:201-205 | The user's set loses exactly this socket. The entry disappears exactly when it held nothing else. Other entries are unchanged, and both registry invariants are preserved. |
| Registry.RemoveUndoesAdd | server/index.js:201-205 | Connecting a socket that is not registered (lines 74-75) and then disconnecting it restores the registry exactly. |
| Socket.OnDisconnect | server/index.js:198-214 | The registry becomes the old one with this socket removed. `presence:offline` goes to everybody, and `online` becomes false, exactly when the user has no entry left and the id does not fail to cast. |
| Socket.PresenceKeepsRegistryInvariant | server/index.js:201-205 | Connect (lines 74-75) and disconnect never leave an empty set in the registry. |
| Socket.DisconnectsBeforeLast | server/index.js:201-210 | While at least one of the user's sockets stays connected, a run of disconnects emits nothing and writes no user. |
| Socket.DisconnectOneOfSeveral | server/index.js:201-210 | Disconnecting one of two or more sockets of a user emits nothing, leaves the store alone, and shrinks that user's set by exactly this socket. |
| Socket.LastDisconnectGoesOffline | server/index.js:201-210 | A user with k live sockets: the first k-1 disconnects emit nothing, and the k-th emits `presence:offline` exactly once and removes the user's entry. |
| Model.WritePresence | server/index.js:80 | `findByIdAndUpdate`, here and at line 208, throws a cast error exactly for a defined, invalid id. Otherwise only the matching user's `online` changes. |
| Model.PresenceKeepsLastseen | server/models/User.js:21-22 | A presence write leaves every user's `lastseen` and every other field as it was, because the handlers' `lastSeen` key is not a schema path. |
| Types.FindFirst | server/index.js:110 | A `findOne` over a collection in insertion order: the index of the first document the filter matches, no match before it, or nothing when no document matches. `Resolver.FindPair` (`{participants: {$all: [a, b]}}`), `Model.FindConversation` (`findById`) and `Model.FindUserByEmail` (`findOne({email})`) are this search with their filters. |
| Resolver.FindPairSymmetric | server/index.js:110 | Matching does not depend on the order of the two ids. |
| Resolver.Resolve | server/index.js:109-132 | If a match exists, it is returned and nothing is created. Otherwise, when the create succeeds, exactly one conversation `[a, b]` with an empty last message is appended after the interleaved inserts and returned. When the create fails, the re-find's first match is returned, and when there is none the result is unresolved and nothing is created. |
| Resolver.ResolveTwice | server/routes/conversations.js:154-170 | When the first resolution saw no interleaved insert, or its create threw (`race.interleaved == [] \|\| !race.createSucceeds`), a second resolution of the same pair, with the ids in the other order, returns the first call's conversation and creates nothing. |
| Resolver.ResolveKeepsPairsUnique | server/index.js:109-132 | Without interference, resolution never produces a second conversation for two distinct users. |
| Resolver.ConcurrentCreatesDuplicate | server/models/Conversation.js:14 | The participant index is not unique, so two racing creates both succeed and leave two conversations for one pair. |
| Resolver.SelfResolvesToAnyContaining | server/index.js:110 | The socket path has no self-check: resolving `(a, a)` returns the first conversation that merely contains `a`. |
| Socket.OnSend | server/index.js:87-168 | A missing payload, `to` or `text` emits only the "Missing fields" error to the sender. An id that fails to cast emits only "Invalid user id format". Neither touches the store. Otherwise at most one message is appended, always at the end. With no new message, exactly one `error` event goes to the sender. With one, it is `{conversation, from, to, text, read: false}`, the delivery events are emitted, and some conversation holds both users and summarises the message's text and time. If a matching conversation already existed, the message goes into it and no conversation is created. If none existed and the create succeeds, even after other inserts interleaved, the message is appended, delivered with the usual events, and one conversation `[from, to]` summarising it is appended after the interleaved inserts. When the create throws and the re-find (lines 121-129) finds a conversation, the message is stored in that conversation, delivered, and summarised there, and no other conversation changes. |
| Socket.FirstContactCreatesOne | server/index.js:109-148 | A corollary of `Socket.OnSend` for the sequential case: with no prior conversation, a send adds exactly one conversation `[from, to]` and stores its message there. |
| Socket.SendIntoExisting | server/index.js:109-148 | A valid send between two users who already share a conversation stores one message in the first such conversation and creates no conversation. |
| Socket.UnresolvedSendStoresNothing | server/index.js:121-128 | When the create throws and the re-find finds nothing, the outer catch (lines 164-166) sends "Server error" and no message is stored. |
| Socket.RecipientSocketsGetOneCopy | server/index.js:161-163 | For a message to someone other than the sender (`to != sender`), with sockets owned by one user each, every socket of the recipient gets exactly one `message:new` and no `message:sent`. |
| Socket.SenderSocketGetsEchoAndAck | server/index.js:161-163 | For a message to someone other than the sender (`to != sender`), with sockets owned by one user each, the sending socket gets one `message:new` echo and one `message:sent` acknowledgement, in that order. |
| Events.Inbox | server/index.js:161-163 | A socket receives no more events than were emitted, and an emitted event reaches it exactly when the event's room, origin or broadcast includes it. |
| Socket.OnTyping | server/index.js:171-178 | A falsy `to` produces nothing. Otherwise exactly one event with the handler's name goes to room `to`, with `from` the sender and `conversationId` defaulting to null. The state is unchanged either way. |
| Socket.TypingReachesRecipient | server/index.js:171-178 | A relayed typing signal reaches each live connection of `to` exactly once and no other connection. |
| Socket.MarkRead | server/index.js:184 | Only `read` can change. It becomes true exactly for messages of the conversation addressed to the reader, and stays as it was for every other message. |
| Socket.MarkReadIdempotent | server/index.js:184 | Marking read a second time changes nothing. |
| Socket.FirstOther | server/index.js:188 | The first participant differing from the reader is returned; nothing is returned exactly when all participants equal the reader. |
| Socket.OnRead | server/index.js:181-195 | A falsy conversation id is a no-op. A truthy, valid conversation id with a valid or undefined reader applies `MarkRead` to the messages; any other input leaves them unchanged. Nothing else in the store or registry changes. At most one event is emitted: `message:read {conversationId, reader}` to the room of the first participant other than the reader. It is emitted exactly when the ids are valid, the conversation exists and such a participant exists. |
| Socket.ReadTwice | server/index.js:181-195 | A repeated `message:read` changes no message and emits the same notification again. |
| Text.LowerProperties | server/routes/auth.js:13 | Lower-casing keeps the length, leaves no upper-case letter, changes nothing but letters, and is idempotent. |
| Text.Split | server/middleware/auth.js:8 | `split` yields at least one field, and no field contains the separator. |
| Text.JoinSplit | server/middleware/auth.js:8 | Joining the fields of a split with the separator gives back the original text. |
| Text.UpTo | server/middleware/auth.js:8 | The text up to the first separator is a separator-free prefix that ends at a separator or at the end of the text. |
| Text.SplitHead | server/middleware/auth.js:8 | The first field of a split is the text up to the first separator. |
| Text.SplitAfterHead | server/middleware/auth.js:8 | Splitting a separator-free head, a separator and a tail gives the head followed by the tail's fields. |
| Gates.BearerField | server/middleware/auth.js:5-8 | For a header starting with "Bearer ", field 1 of `split(' ')` exists and is the text after the prefix up to the next space. |
| Gates.Authenticate | server/middleware/auth.js:3-18 | The middleware rejects with 401 and the fixed message exactly when the header (`authorization`, falling back to `Authorization`) is missing or does not start with the case-sensitive "Bearer ". Otherwise it calls `next` exactly when the token verifies, with `{id: claims.userId, email: claims.email}`, and throws when it does not. |
| Gates.BearerExamples | server/middleware/auth.js:8 | "Bearer abc" gives the token "abc", and "Bearer  abc" (two spaces) gives the empty token. |
| Gates.HeaderExamples | server/middleware/auth.js:4-5 | "bearer abc" is rejected. A header map keyed `Authorization` is accepted through the fallback. Node lower-cases incoming header names, so in the running server that key never occurs and the fallback never fires; the lemma is about the code's own lookup. |
| Sorting.Insert | server/routes/conversations.js:122 | Inserting into a sorted sequence keeps it sorted and adds exactly the inserted element: the result is one longer and a permutation of the input plus the new element. |
| Sorting.SortBy | server/routes/conversations.js:122 | The result is ascending in the key and is a permutation of the input; the list route sorts on the negated `lastMessageAt` (line 92). |
| ConversationRoutes.Participating | server/routes/conversations.js:91 | The filter keeps exactly the conversations whose participants include the user, each with its multiplicity. |
| ConversationRoutes.ListConversations | server/routes/conversations.js:87-99 | For a valid user id, the reply is 200 with exactly the conversations containing the user, as a permutation of the store's matches, in non-increasing `lastMessageAt` order. An invalid id gives 500, and an undefined id gives the empty list. |
| Text.DigitRun | server/routes/conversations.js:118-119 | The leading run of digits consists of digits and ends at a non-digit or at the end of the text. |
| Text.Decimal | server/routes/conversations.js:118-119 | A number's decimal text is non-empty, made of digits, and has no leading zero. |
| Text.DecimalValue | server/routes/conversations.js:118-119 | Every character of a number's decimal text is a digit, and the digits' value is the number. |
| Text.ParseSkipsSpace | server/routes/conversations.js:118-119 | A leading white-space character, the Unicode space separators such as U+3000 included, does not change what `parseInt` reads. |
| Text.NotANumber | server/routes/conversations.js:118-119 | `parseInt` of text that starts with anything but white space (ECMAScript's WhiteSpace and LineTerminator, the Unicode space separators included), a sign or a decimal digit is NaN, so the `||` fallback applies. |
| Text.DigitRunOfPrefix | server/routes/conversations.js:118-119 | The digit run `parseInt` reads stops exactly at the first character that is not a digit of the radix. |
| Text.ParsePrefix | server/routes/conversations.js:118-119 | `parseInt` of a non-empty run of decimal digits followed by anything that does not start with a digit is the value of the digits, so "20abc" reads as 20. A lone "0" before `x` or `X` is excluded, since that is a hex prefix. |
| Text.ParseSigned | server/routes/conversations.js:118-119 | With a leading `-` or `+` before such a digit run, `parseInt` gives minus the digits' value or the value itself. |
| Text.ParseHex | server/routes/conversations.js:118-119 | After `0x` or `0X`, `parseInt` reads hexadecimal digits up to the first non-hex character. An empty hex run is NaN. |
| Text.ParseSign | server/routes/conversations.js:118-119 | One leading `-` before text that starts with neither white space nor a sign negates what that text parses to, NaN staying NaN; a leading `+` changes nothing. |
| Text.ParseSignedHex | server/routes/conversations.js:118-119 | The sign is read before the `0x`/`0X` prefix, so it applies to the hexadecimal value: "-0x1A" gives -26 and "+0x10" gives 16. A sign followed by an empty hex run is NaN. |
| Text.ParseDecimal | server/routes/conversations.js:118-119 | `parseInt` of a number's decimal text, optionally preceded by "-", gives that number back. |
| ConversationRoutes.EffectiveLimit | server/routes/conversations.js:118 | The limit never exceeds 200 and is never 0. It is 50 when the parameter is missing, non-numeric or 0, is kept when non-zero and at most 200, and is 200 above that. |
| ConversationRoutes.EffectiveSkip | server/routes/conversations.js:119 | The skip is 0 for a missing or non-numeric parameter, and the parsed value otherwise. |
| ConversationRoutes.DefaultLimit | server/routes/conversations.js:118-119 | A missing or non-numeric limit is 50, and a missing skip is 0. |
| ConversationRoutes.LimitOfDecimal | server/routes/conversations.js:118 | For any decimal parameter n: 0 gives 50, n up to 200 is kept, a larger n gives 200, and "-n" gives -n (or 50 for zero). |
| ConversationRoutes.SpacedLimit | server/routes/conversations.js:118 | A decimal limit after any white-space character, the ideographic space U+3000 among them, is read as the same limit without the space. |
| ConversationRoutes.InConversation | server/routes/conversations.js:121 | The filter keeps exactly the messages of the conversation. |
| ConversationRoutes.InConversationCounts | server/routes/conversations.js:121 | The filter keeps every copy of a matching message and no copy of any other. |
| ConversationRoutes.Window | server/routes/conversations.js:123-124 | Skip then limit: the result is the run starting `skip` in, with as many elements as remain or the limit's magnitude, whichever is smaller. A limit of 0 gives nothing here, where MongoDB reads it as no limit; the route never passes 0. |
| ConversationRoutes.WindowKeepsOrder | server/routes/conversations.js:122-124 | A window of a sequence sorted by creation time is sorted by creation time. |
| ConversationRoutes.ConversationWindow | server/routes/conversations.js:121-125 | The page holds only the conversation's messages, oldest first, starting `skip` messages into the sorted conversation. Its length is the number of messages left after `skip` or the limit's magnitude, whichever is smaller, and it is empty when `skip` reaches past the end. When it starts at 0 and the limit covers the conversation, it is all of it. |
| ConversationRoutes.WindowKeepsSendOrder | server/routes/conversations.js:121-125 | Two messages of one conversation created at t1 < t2 both appear in a covering first page, in that order. |
| ConversationRoutes.MessagePage | server/routes/conversations.js:107-132 | The checks run in a fixed order: an invalid id gives 400, then a missing conversation 404, then a non-participant 403, then a negative skip 500. A valid id of an existing conversation, asked for by a participant with a non-negative skip, always gives 200 with that conversation and the window `ConversationWindow` of its messages for the effective skip and limit. The store is never changed. |
| ConversationRoutes.DefaultPage | server/routes/conversations.js:101-125 | A participant asking for a valid, existing conversation with no `limit` and no `skip` gets 200 and the first 50 of its messages in creation order. |
| ConversationRoutes.PageKeepsSendOrder | server/routes/conversations.js:118-125 | On the default first page of a conversation of at most 50 messages, two messages created at t1 < t2 come back in that order. |
| ConversationRoutes.WithUser | server/routes/conversations.js:138-177 | 400 for a missing other id, then for self, then for an invalid id on either side, each with the store unchanged. Otherwise an existing match is returned without creating. When the create succeeds, `[me, other]` with an empty last message is appended after any interleaved inserts and returned. When the create throws, the re-find's match, typically the rival's conversation, is returned with 200, and a re-find that finds nothing gives 500. A 200 always carries a stored conversation containing both ids. Users and messages are never changed. |
| ConversationRoutes.WithUserTwice | server/routes/conversations.js:154-170 | When the first call saw no interleaved insert, or its create threw (`race.interleaved == [] \|\| !race.createSucceeds`), and it answered 200, a second call for the same pair, from either side, returns the first call's reply and adds nothing. |
| ConversationRoutes.RouteThenSendAgree | server/routes/conversations.js:153-170 | The route and `message:send` resolve alike: after the route opens the conversation of a and b, a message from a to b lands in that conversation, and no second conversation is created. |
| AuthRoutes.Register | server/routes/auth.js:9-25 | A falsy name, email or password gives 400. A taken lower-cased email gives 409. A taken name makes the create throw into the rethrowing catch. None of these adds a user. Complete fields with a free lower-cased email and a free name always append exactly one user: the given name, the lower-cased email, the password's hash (never the password), offline. The reply is then 201 with a token signed over `userid` and the email. |
| AuthRoutes.RegisterKeepsEmailsUnique | server/routes/auth.js:13-18 | Registration keeps stored emails unique and lower-cased. |
| AuthRoutes.SecondRegisterRefused | server/routes/auth.js:13-14 | After a successful registration, a second one with the same email in any capitalisation gets 409 and adds nobody. |
| AuthRoutes.Login | server/routes/auth.js:27-38 | A missing email or password gives 409. An unknown email and a wrong password give the same 401 body. A user found under the lower-cased email whose hash `compare` accepts always gets 200 with a token signed over `userId` and that user's email, and every 200 is of this kind. |
| AuthRoutes.RegisteredUserCanLogIn | server/routes/auth.js:17-35 | When compare accepts each password's own hash, the registered credentials log in, with the email typed in any capitalisation. |
| AuthRoutes.SignedClaim | server/routes/auth.js:34 | Under an idealised signer, every claim except `iat` and `exp` reads back from a verified token as signed. |
| AuthRoutes.GatesReadToken | server/index.js:55-58 | Both gates attach `{id: claims.userId, email: claims.email}` of the signed claims to a signed token. |
| AuthRoutes.RegisterTokenLacksUserId | server/routes/auth.js:19 | A register-issued token passes both gates with an undefined user id, because it carries `userid`, not `userId`. |
| AuthRoutes.LoginTokenCarriesUserId | server/routes/auth.js:34 | A login-issued token passes both gates carrying the user's id and email. |

## Left out

- Process bootstrap, environment checks, Express and Socket.IO wiring, the database connection and server start (server/index.js:1-50, 217-229, server/config/db.js): configuration and I/O.
- Logging (`console.*`): it has no effect on state or replies.
- The internals of `jwt.sign`/`jwt.verify`, `bcrypt.hash`/`bcrypt.compare`, Mongo query execution and `ObjectId.isValid`: foreign code, taken as the `Env` parameters.
- Token expiry (`expiresIn: '1d'`) and the clock: times are caller-supplied naturals, and `jwt.verify` is a parameter.
- Interleaving of awaited database calls across connections, beyond the resolver's race parameter: each handler is one atomic step.
- The window inside one connection while the connect handler awaits its presence write (server/index.js:80): every listener, `disconnect` included, is attached only after that await (lines 87-214). So a disconnect during it is never handled: the socket id stays in `userSockets` and the user is never broadcast offline. A `message:send` during it is dropped. The model treats the listeners as attached at once, so its registry holds exactly the sockets whose disconnect was handled as a step.
- Process termination: under Express 4 a rejected route handler (a `Crash` reply), and under Node 15 or later any unhandled rejection or uncaught throw in a socket listener, ends the whole process and every session. The model keeps the server state after such a step.
- Store failures other than the resolver's create, for example a failing `Message.create`, `convo.save` or `bcrypt.hash`: these are foreign failures with no modelled cause.
- Case canonicalisation of ObjectIds: a valid id is taken in canonical form, so `String(new ObjectId(s)) == s`.
- Lower-casing beyond ASCII: `Text.Lower` maps only A-Z.
- The order of equal sort keys: MongoDB promises none for `.sort({createdAt: 1})` and `.sort({lastMessageAt: -1})`. The model takes ties in store order, so `ConversationRoutes.ConversationWindow`'s element-by-element statement and the list route's order fix one of the orders the database may return.
- Socket.IO's per-socket rooms: every socket is also in a room named by its socket id, so `io.to(String(to))` in the typing handler would also reach a socket whose id equals `to`. The model's room of `to` holds only the sockets registered for user `to`.
- The capitalised `Authorization` fallback in the middleware (server/middleware/auth.js:4): Node lower-cases incoming header names, so it never fires in the server. The model keeps the code's lookup as written.
- AuthRoutes.Register: does not apply the schema's `trim` setter on `email` (server/models/User.js:14); it stores the lower-cased email untrimmed. For an email with surrounding white space, the source stores and returns the trimmed email and signs it into the token's `email` claim, and a later login looks up a differently padded email; the model's stored email, token claim and those lookups differ from the source. Whether the lookup filters are trimmed too depends on the Mongoose version's query casting, which is not part of this model.
- Destructuring an undefined payload in the `typing:*` and `message:read` handlers, which throws inside the event callback: the payload is taken to be an object. Such a throw, or the rejection it causes in the `async` read handler, would end the process under Node 15 or later; process termination is not modelled.
- `parseInt` on numbers beyond floating-point precision and on non-string query values (arrays from repeated parameters): the model parses exact integers from a single string.
- Mongo's response when a filter holds `undefined`: taken to match nothing.
- The driver's and server's handling of a negative limit and skip: taken as its absolute value, and as a 500, respectively.
- server/routes/users.js, `User.toJSON` (server/models/User.js:31-35), the commented-out legacy block of server/routes/conversations.js:1-71, and server/scripts/: a single query wrapper, a serialisation detail, dead code, and manual clients.
- Socket.OnSend: stores the message's `createdAt` as the step's clock value, and does not model the Mongoose `timestamps` fields beyond that.
- AuthRoutes.Register: the duplicate-key failure of the unique email index under a concurrent registration is not modelled, because each route runs as one atomic step.

=== FILE: accounts.dfy ===
/**
 The account routes: `/register` creates a user and issues a token, `/login`
 checks a password and issues a token. Hashing, comparing and signing are the
 environment's; the routes decide which of them runs and what the token says.
 */
module AuthRoutes {
  import opened Types
  import opened Text
  import opened Model
  import opened Http
  import opened Gates

  // ---------------------------------------------------------------- POST /register

  /** `req.body`'s three fields, each possibly undefined. */
  datatype RegisterBody = RegisterBody(name: JsString, email: JsString, password: JsString)

  /** The users afterwards and the reply. */
  datatype Registration = Registration(users: seq<User>, reply: Reply)

  predicate Complete(body: RegisterBody) {
    Truthy(body.name) && Truthy(body.email) && Truthy(body.password)
  }

  /** The schema's unique index on `name` rejects a second user with the same name. */
  predicate NameTaken(users: seq<User>, name: string) {
    exists i :: 0 <= i < |users| && users[i].name == name
  }

  const CreateFailed := "error while registering in auth routes"

  /** The claims a register-issued token is signed with: note the lower-case `userid`. */
  function RegisterClaims(u: User): Claims {
    map["userid" := u.id, "email" := u.email]
  }

  /**
   POST /register: 400 unless all three fields are present, 409 when the
   lower-cased email is taken, otherwise create the user with the lower-cased
   email and the password's hash and answer 201 with a token. A create the
   unique name index rejects reaches the catch block, which rethrows.
   */
  function Register(env: Env, users: seq<User>, body: RegisterBody, newId: Oid, now: nat): (r: Registration)
    ensures !Complete(body) ==> r == Registration(users, Respond(400, ErrorJson("give all input data")))
    ensures Complete(body) && FindUserByEmail(users, Lower(body.email.value)).Some? ==>
      r == Registration(users, Respond(409, JsonText("User Already Exist")))
    ensures Complete(body) && FindUserByEmail(users, Lower(body.email.value)).None? && NameTaken(users, body.name.value) ==>
      r == Registration(users, Crash(CreateFailed))
    ensures Complete(body) && FindUserByEmail(users, Lower(body.email.value)).None? && !NameTaken(users, body.name.value) ==>
      |r.users| == |users| + 1
    ensures |r.users| == |users| || |r.users| == |users| + 1
    ensures r.users[..|users|] == users
    ensures |r.users| == |users| + 1 <==> r.reply.Respond? && r.reply.status == 201
    ensures |r.users| == |users| + 1 ==>
      var u := r.users[|users|];
      && Complete(body)
      && u.id == newId && u.name == body.name.value && !u.online && u.lastseen == now
      && u.email == Lower(body.email.value) && NoUpper(u.email)
      && u.passwordHash == env.hash(body.password.value)
      && (forall i :: 0 <= i < |users| ==> users[i].email != u.email && users[i].name != u.name)
      && r.reply == Respond(201, TokenIssued("User registered successfully", env.sign(RegisterClaims(u)), u))
  {
    if !Complete(body) then Registration(users, Respond(400, ErrorJson("give all input data")))
    else
      var email := Lower(body.email.value);
      if FindUserByEmail(users, email).Some? then Registration(users, Respond(409, JsonText("User Already Exist")))
      else if NameTaken(users, body.name.value) then Registration(users, Crash(CreateFailed))
      else
        LowerProperties(body.email.value);
        var u := User(newId, body.name.value, email, env.hash(body.password.value), false, now);
        var users' := users + [u];
        assert users'[..|users|] == users;
        Registration(users', Respond(201, TokenIssued("User registered successfully", env.sign(RegisterClaims(u)), u)))
  }

  /** No two users share an email. */
  ghost predicate EmailsUnique(users: seq<User>) {
    forall i, j :: 0 <= i < j < |users| ==> users[i].email != users[j].email
  }

  /** Every stored email is in lower case. */
  ghost predicate EmailsLower(users: seq<User>) {
    forall i :: 0 <= i < |users| ==> NoUpper(users[i].email)
  }

  /** Registration keeps emails unique and lower-cased, however the caller capitalised theirs. */
  lemma RegisterKeepsEmailsUnique(env: Env, users: seq<User>, body: RegisterBody, newId: Oid, now: nat)
    requires EmailsUnique(users) && EmailsLower(users)
    ensures var r := Register(env, users, body, newId, now);
      EmailsUnique(r.users) && EmailsLower(r.users)
  {
    var r := Register(env, users, body, newId, now);
    if |r.users| == |users| + 1 {
      forall i, j | 0 <= i < j < |r.users| ensures r.users[i].email != r.users[j].email {
        assert r.users[i] == users[i];
        if j < |users| {
          assert r.users[j] == users[j];
        }
      }
      forall i | 0 <= i < |r.users| ensures NoUpper(r.users[i].email) {
        if i < |users| {
          assert r.users[i] == users[i];
        }
      }
    } else {
      assert r.users == r.users[..|users|];
    }
  }

  /** Two registrations whose emails differ only in case create one user: the second is refused with 409. */
  lemma SecondRegisterRefused(env: Env, users: seq<User>, b1: RegisterBody, b2: RegisterBody, id1: Oid, id2: Oid, t1: nat, t2: nat)
    requires Register(env, users, b1, id1, t1).reply.Respond? && Register(env, users, b1, id1, t1).reply.status == 201
    requires Complete(b1) && Complete(b2) && Lower(b1.email.value) == Lower(b2.email.value)
    ensures var r1 := Register(env, users, b1, id1, t1);
      Register(env, r1.users, b2, id2, t2) == Registration(r1.users, Respond(409, JsonText("User Already Exist")))
  {
    var r1 := Register(env, users, b1, id1, t1);
    if FindUserByEmail(r1.users, Lower(b2.email.value)).None? {
      assert false;
    }
  }

  // ---------------------------------------------------------------- POST /login

  const InvalidCredentials := Respond(401, ErrorJson("Invalid Credentails"))

  /** The claims a login-issued token is signed with: `userId`, unlike register. */
  function LoginClaims(u: User): Claims {
    map["userId" := u.id, "email" := u.email]
  }

  /**
   POST /login: 409 unless email and password are present; 401 with one and
   the same body for an unknown email and for a wrong password; otherwise 200
   with a token for the user stored under the lower-cased email.
   */
  function Login(env: Env, users: seq<User>, email: JsString, password: JsString): (r: Reply)
    ensures r.Respond?
    ensures !Truthy(email) || !Truthy(password) ==> r == Respond(409, ErrorJson("give all input filed data"))
    ensures Truthy(email) && Truthy(password) && FindUserByEmail(users, Lower(email.value)).None? ==> r == InvalidCredentials
    ensures (Truthy(email) && Truthy(password) && FindUserByEmail(users, Lower(email.value)).Some?
      && !env.compare(password.value, users[FindUserByEmail(users, Lower(email.value)).value].passwordHash)) ==>
      r == InvalidCredentials
    ensures (Truthy(email) && Truthy(password) && FindUserByEmail(users, Lower(email.value)).Some?
      && var u := users[FindUserByEmail(users, Lower(email.value)).value];
      env.compare(password.value, u.passwordHash)) ==>
      var u := users[FindUserByEmail(users, Lower(email.value)).value];
      r == Respond(200, TokenIssued("Login Successfull", env.sign(LoginClaims(u)), u))
    ensures r.status == 200 ==>
      && Truthy(email) && Truthy(password)
      && r.body.TokenIssued? && r.body.message == "Login Successfull"
      && r.body.user in users && r.body.user.email == Lower(email.value)
      && env.compare(password.value, r.body.user.passwordHash)
      && r.body.token == env.sign(LoginClaims(r.body.user))
    ensures r.status in {200, 401, 409}
  {
    if !Truthy(email) || !Truthy(password) then Respond(409, ErrorJson("give all input filed data"))
    else
      match FindUserByEmail(users, Lower(email.value))
      case None => InvalidCredentials
      case Some(i) =>
        var u := users[i];
        if !env.compare(password.value, u.passwordHash) then InvalidCredentials
        else Respond(200, TokenIssued("Login Successfull", env.sign(LoginClaims(u)), u))
  }

  /** The credentials a registration stores let that user log in, whatever case the email is typed in. */
  lemma RegisteredUserCanLogIn(env: Env, users: seq<User>, body: RegisterBody, newId: Oid, now: nat, typed: string)
    requires Register(env, users, body, newId, now).reply.Respond?
    requires Register(env, users, body, newId, now).reply.status == 201
    requires Lower(typed) == Lower(body.email.value)
    requires forall p :: env.compare(p, env.hash(p))
    ensures var r := Register(env, users, body, newId, now);
      Login(env, r.users, Some(typed), body.password) ==
        Respond(200, TokenIssued("Login Successfull", env.sign(LoginClaims(r.users[|users|])), r.users[|users|]))
  {
    var r := Register(env, users, body, newId, now);
    var u := r.users[|users|];
    var k := FindUserByEmail(r.users, Lower(typed));
    assert r.users[|users|] == u;
    if k.None? {
      assert false;
    }
    if k.value < |users| {
      assert false;
    }
    assert typed != "" by {
      LowerProperties(typed);
      LowerProperties(body.email.value);
    }
  }

  // ---------------------------------------------------------------- the issued tokens at the gates

  /** Under an idealised signer, reading a claim of a verified token gives what was signed, for any claim but `iat` and `exp`. */
  lemma SignedClaim(env: Env, c: Claims, name: string)
    requires SignVerifies(env)
    requires name != "iat" && name != "exp"
    ensures env.verify(env.sign(c)).Some?
    ensures Claim(env.verify(env.sign(c)).value, name) == Claim(c, name)
  {
    assert VerifiedAs(env.verify(env.sign(c)), c);
  }

  /** The identity both gates attach for a token signed with claims `c`. */
  lemma GatesReadToken(env: Env, c: Claims)
    requires SignVerifies(env)
    ensures var token := env.sign(c);
      var id := Identity(Claim(c, "userId"), Claim(c, "email"));
      && SocketGate(env, Handshake(Some(token), None)) == Accepted(id)
      && Authenticate(env, map["authorization" := "Bearer " + token]) == Next(id)
  {
    var token := env.sign(c);
    SignedClaim(env, c, "userId");
    SignedClaim(env, c, "email");
    var header := "Bearer " + token;
    assert header[..7] == "Bearer ";
    assert header[7..] == token;
    assert AuthHeader(map["authorization" := header]) == Some(header);
  }

  /** A register-issued token gets through both gates with an undefined user id, because it carries `userid`. */
  lemma RegisterTokenLacksUserId(env: Env, users: seq<User>, body: RegisterBody, newId: Oid, now: nat)
    requires SignVerifies(env)
    requires Register(env, users, body, newId, now).reply.Respond?
    requires Register(env, users, body, newId, now).reply.status == 201
    ensures var r := Register(env, users, body, newId, now);
      var token := r.reply.body.token;
      var id := Identity(None, Some(r.users[|users|].email));
      && SocketGate(env, Handshake(Some(token), None)) == Accepted(id)
      && Authenticate(env, map["authorization" := "Bearer " + token]) == Next(id)
  {
    var r := Register(env, users, body, newId, now);
    var c := RegisterClaims(r.users[|users|]);
    GatesReadToken(env, c);
    assert Claim(c, "userId") == None;
  }

  /** A login-issued token gets through both gates carrying the user's id and email. */
  lemma LoginTokenCarriesUserId(env: Env, users: seq<User>, email: JsString, password: JsString)
    requires SignVerifies(env)
    requires Login(env, users, email, password).status == 200
    ensures var r := Login(env, users, email, password);
      var token := r.body.token;
      var id := Identity(Some(r.body.user.id), Some(r.body.user.email));
      && SocketGate(env, Handshake(Some(token), None)) == Accepted(id)
      && Authenticate(env, map["authorization" := "Bearer " + token]) == Next(id)
  {
    var r := Login(env, users, email, password);
    GatesReadToken(env, LoginClaims(r.body.user));
  }
}

=== FILE: events.dfy ===
/**
 What a handler emits, and who receives it. Each socket joins the room named by
 its user id at connection time and leaves every room when it disconnects, so
 the room of user `u` is taken to be the registry entry of `u`: an emit to that
 room reaches every live connection of `u`. Socket.IO also puts each socket in
 a room named by its own socket id; those rooms are not modelled.
 */
module Events {
  import opened Types
  import opened Model
  import Registry

  /** `io.to(room)`, `socket` (the originating connection) or `io` (everybody connected). */
  datatype Target = Room(room: string) | Origin | All

  datatype Payload =
    | PresenceOnline(userId: UserRef)
    | PresenceOffline(userId: UserRef, lastSeen: nat)
    | NewMessage(message: Message)
    | Sent(messageId: Oid, conversationId: Oid)
    | Typing(from: UserRef, conversation: JsString)
    | ReadReceipt(conversationId: string, reader: UserRef)
    | ErrorReport(event: string, error: string)

  datatype Event = Emit(target: Target, name: string, payload: Payload)

  /** The live sessions: user id (possibly undefined) to socket ids. */
  type Sessions = map<UserRef, set<SocketId>>

  /** Every live socket. */
  function Live(sessions: Sessions): set<SocketId> {
    set k, s | k in sessions && s in sessions[k] :: s
  }

  /** The sockets an emit to `t` reaches, from a handler running on socket `origin`. */
  function Recipients(sessions: Sessions, origin: SocketId, t: Target): set<SocketId> {
    match t
    case Room(r) => Registry.Entry(sessions, Some(r))
    case Origin => {origin}
    case All => Live(sessions)
  }

  /** The events of `evs` that socket `sock` receives, in emission order. */
  function Inbox(sessions: Sessions, origin: SocketId, evs: seq<Event>, sock: SocketId): (r: seq<Event>)
    ensures |r| <= |evs|
    ensures forall e :: e in r <==> e in evs && sock in Recipients(sessions, origin, e.target)
  {
    if |evs| == 0 then []
    else
      (if sock in Recipients(sessions, origin, evs[0].target) then [evs[0]] else [])
      + Inbox(sessions, origin, evs[1..], sock)
  }

  /** An error report to the originating connection only. */
  function ErrorTo(event: string, error: string): Event {
    Emit(Origin, "error", ErrorReport(event, error))
  }
}

=== FILE: gates.dfy ===
/**
 The two identity gates: the Socket.IO handshake middleware, which runs once per
 connection before any handler is attached, and the `auth` Express middleware
 in front of the conversation routes. Both verify a JWT and expose the claims
 `userId` and `email`, either of which may be undefined.
 */
module Gates {
  import opened Types
  import opened Text
  import opened Http

  /** `{id: payload.userId, email: payload.email}`. */
  datatype Identity = Identity(id: UserRef, email: JsString)

  function IdentityOf(c: Claims): Identity {
    Identity(Claim(c, "userId"), Claim(c, "email"))
  }

  // ---------------------------------------------------------------- socket handshake

  /** `socket.handshake.auth?.token` and `socket.handshake.query?.token`. */
  datatype Handshake = Handshake(authToken: JsString, queryToken: JsString)

  datatype GateResult = Accepted(user: Identity) | Refused(reason: string)

  const NoToken := "Unauthorized: no token"
  const InvalidToken := "Unauthorized: invalid token"

  /** The token the handshake presents: the auth field, falling back to the query parameter. */
  function HandshakeToken(hs: Handshake): JsString {
    Or(hs.authToken, hs.queryToken)
  }

  /** Verifying `token` succeeds and its claims give `user`. */
  predicate Yields(env: Env, token: string, user: Identity) {
    env.verify(token).Some? && user == IdentityOf(env.verify(token).value)
  }

  /** The socket gate: refuse without a token, refuse when verification fails, else attach the claims' identity. */
  function SocketGate(env: Env, hs: Handshake): (r: GateResult)
    ensures r == Refused(NoToken) <==> !Truthy(hs.authToken) && !Truthy(hs.queryToken)
    ensures r == Refused(InvalidToken) <==>
      (Truthy(hs.authToken) && env.verify(hs.authToken.value).None?)
      || (!Truthy(hs.authToken) && Truthy(hs.queryToken) && env.verify(hs.queryToken.value).None?)
    ensures r.Refused? ==> r.reason in {NoToken, InvalidToken}
    ensures r.Accepted? ==>
      || (Truthy(hs.authToken) && Yields(env, hs.authToken.value, r.user))
      || (!Truthy(hs.authToken) && Truthy(hs.queryToken) && Yields(env, hs.queryToken.value, r.user))
  {
    var token := HandshakeToken(hs);
    if !Truthy(token) then Refused(NoToken)
    else
      match env.verify(token.value)
      case None => Refused(InvalidToken)
      case Some(claims) => Accepted(IdentityOf(claims))
  }

  /** A handshake auth token makes the query token irrelevant, whatever it is. */
  lemma AuthTokenWins(env: Env, hs: Handshake, query: JsString)
    requires Truthy(hs.authToken)
    ensures SocketGate(env, hs) == SocketGate(env, Handshake(hs.authToken, query))
  {
  }

  // ---------------------------------------------------------------- HTTP bearer header

  /** Request headers by name, exactly as the handler indexes them. */
  type Headers = map<string, string>

  /** What the middleware does: answer 401 itself, call `next()` once with `req.user` set, or throw. */
  datatype AuthOutcome = Rejected(reply: Reply) | Next(user: Identity) | Thrown(reason: string)

  const MissingHeader := Respond(401, ErrorJson("Missing or invalid authorization header"))

  /** `req.headers.authorization || req.headers.Authorization`. */
  function AuthHeader(h: Headers): JsString {
    Or(Claim(h, "authorization"), Claim(h, "Authorization"))
  }

  /** `split(' ')[1]` of a header that starts with "Bearer " is the text after that prefix up to the next space. */
  lemma BearerField(header: string)
    requires "Bearer " <= header
    ensures |Split(header, ' ')| >= 2
    ensures Split(header, ' ')[1] == UpTo(header[7..], ' ')
  {
    assert header == "Bearer" + [' '] + header[7..];
    SplitAfterHead("Bearer", header[7..], ' ');
    SplitHead(header[7..], ' ');
  }

  /** `authHeader.split(' ')[1]`. */
  function BearerToken(header: string): string
    requires "Bearer " <= header
  {
    BearerField(header);
    Split(header, ' ')[1]
  }

  /** The bearer-header middleware. */
  function Authenticate(env: Env, h: Headers): (r: AuthOutcome)
    ensures r.Rejected? <==> !(AuthHeader(h).Some? && "Bearer " <= AuthHeader(h).value)
    ensures r.Rejected? ==> r.reply == MissingHeader
    ensures !r.Rejected? ==>
      var token := UpTo(AuthHeader(h).value[7..], ' ');
      && (r.Next? <==> env.verify(token).Some?)
      && (r.Next? ==> r.user == IdentityOf(env.verify(token).value))
  {
    var header := AuthHeader(h);
    if !(header.Some? && "Bearer " <= header.value) then Rejected(MissingHeader)
    else
      BearerField(header.value);
      match env.verify(BearerToken(header.value))
      case None => Thrown("Authentication failed in middleware")
      case Some(claims) => Next(IdentityOf(claims))
  }

  /** One space gives the token; a double space gives the empty token. */
  lemma BearerExamples()
    ensures BearerToken("Bearer abc") == "abc"
    ensures BearerToken("Bearer  abc") == ""
  {
    BearerField("Bearer abc");
    BearerField("Bearer  abc");
    assert "Bearer abc"[7..] == "abc";
    assert "Bearer  abc"[7..] == " abc";
  }

  /** The scheme name is case-sensitive, and the capitalised header name is the fallback. */
  lemma HeaderExamples(env: Env)
    ensures Authenticate(env, map["authorization" := "bearer abc"]) == Rejected(MissingHeader)
    ensures !Authenticate(env, map["Authorization" := "Bearer abc"]).Rejected?
  {
    var l := map["authorization" := "bearer abc"];
    assert AuthHeader(l) == Some("bearer abc");
    assert "bearer abc"[..7][0] != "Bearer "[0];
    var h := map["Authorization" := "Bearer abc"];
    assert AuthHeader(h) == Some("Bearer abc");
    assert "Bearer " <= "Bearer abc";
  }
}

=== FILE: http.dfy ===
/**
 What an Express route handler produces: a status with a JSON body, or
 `Crash` for a handler that throws or whose promise rejects. Express 5 answers
 500 for it. Express 4 leaves the rejection unhandled, and from Node 15 on an
 unhandled rejection ends the process and every session with it. The model
 records the rejection and leaves its consequence open: the server state
 carries on as if the process survived.
 */
module Http {
  import opened Model

  datatype Body =
    | ErrorJson(error: string)
    | JsonText(text: string)
    | ConversationList(conversations: seq<Conversation>)
    | ConversationPage(conversation: Conversation, messages: seq<Message>)
    | OneConversation(conversation: Conversation)
    | TokenIssued(message: string, token: string, user: User)

  datatype Reply = Respond(status: nat, body: Body) | Crash(reason: string)

  /** The generic failure every route reports from its catch block. */
  const ServerError := Respond(500, ErrorJson("Server error"))
}

=== FILE: model.dfy ===
/**
 The persisted documents (users, conversations, messages) as the Mongoose
 schemas declare them, and the single-document lookups and updates the handlers
 perform on them. The store is an in-memory value: a sequence per collection, in
 insertion order, which is the order an unsorted `findOne` scans.
 */
module Model {
  import opened Types

  /** A user document. The schema's timestamp field is `lastseen` (lower-case s). */
  datatype User = User(
    id: Oid,
    name: string,
    email: string,
    passwordHash: string,
    online: bool,
    lastseen: nat)

  /** A conversation document: its participants in creation order and its last-message summary. */
  datatype Conversation = Conversation(
    id: Oid,
    participants: seq<Oid>,
    lastMessage: string,
    lastMessageAt: nat)

  /** A message document; `createdAt` is the timestamp Mongoose assigns on creation. */
  datatype Message = Message(
    id: Oid,
    conversation: Oid,
    from: Oid,
    to: Oid,
    text: string,
    read: bool,
    createdAt: nat)

  datatype Store = Store(
    users: seq<User>,
    conversations: seq<Conversation>,
    messages: seq<Message>)

  /** `Conversation.findById(id)`: the first conversation with that id. */
  function FindConversation(cs: seq<Conversation>, id: Oid): Option<nat> {
    FindFirst(cs, (c: Conversation) => c.id == id)
  }

  /** The first user with the given id. */
  function FindUser(us: seq<User>, id: Oid): Option<nat> {
    FindFirst(us, (u: User) => u.id == id)
  }

  /** `User.findOne({email})`: the first user with exactly that stored email. */
  function FindUserByEmail(us: seq<User>, email: string): Option<nat> {
    FindFirst(us, (u: User) => u.email == email)
  }

  /**
   The update document the presence handlers send: `{online, lastSeen}`. The
   schema has no path `lastSeen` (its field is `lastseen`), so under Mongoose's
   default strict mode only `online` reaches the document.
   */
  datatype PresencePatch = PresencePatch(online: bool, lastSeen: nat)

  function ApplyPresence(u: User, p: PresencePatch): User {
    u.(online := p.online)
  }

  /** Outcome of `User.findByIdAndUpdate(userId, patch)`. */
  datatype UserWrite = Written(users: seq<User>) | CastFailed

  /**
   `User.findByIdAndUpdate(userId, patch)`: a defined id that is not a valid
   ObjectId throws a cast error; an undefined id matches no user; otherwise the
   first user with that id, if any, receives the patch.
   */
  function WritePresence(env: Env, us: seq<User>, userId: UserRef, p: PresencePatch): (r: UserWrite)
    ensures r.CastFailed? <==> userId.Some? && !env.validId(userId.value)
    ensures r.Written? ==> |r.users| == |us|
    ensures r.Written? ==> forall i :: 0 <= i < |us| ==>
      r.users[i] == us[i] || (Some(us[i].id) == userId && r.users[i] == us[i].(online := p.online))
    ensures r.Written? && userId.Some? && FindUser(us, userId.value).Some? ==>
      r.users[FindUser(us, userId.value).value].online == p.online
  {
    match userId
    case None => Written(us)
    case Some(s) =>
      if !env.validId(s) then CastFailed
      else
        match FindUser(us, s)
        case None => Written(us)
        case Some(i) => Written(us[i := ApplyPresence(us[i], p)])
  }

  /** A presence write never touches the schema's `lastseen` field, nor any field other than `online`. */
  lemma PresenceKeepsLastseen(env: Env, us: seq<User>, userId: UserRef, p: PresencePatch)
    requires WritePresence(env, us, userId, p).Written?
    ensures forall i :: 0 <= i < |us| ==>
      var u' := WritePresence(env, us, userId, p).users[i];
      u'.lastseen == us[i].lastseen && u' == us[i].(online := u'.online)
  {
  }
}

=== FILE: registry.dfy ===
/**
 The session registry `userSockets`: a map from user id to the set of that
 user's registered socket ids. Connect adds a socket, creating the entry if needed;
 disconnect removes it and drops the entry once its set is empty, so the map
 never holds an empty set. An entry means a socket whose disconnect has not
 been handled. That is a live socket only when the disconnect listener was in
 place, which this model assumes for every connection.
 */
module Registry {

  /** The sockets registered under `k`, empty when there is no entry. */
  function Entry<K, S>(reg: map<K, set<S>>, k: K): set<S> {
    if k in reg then reg[k] else {}
  }

  /** The registry invariant: no entry holds an empty set. */
  ghost predicate NoEmptyEntry<K, S>(reg: map<K, set<S>>) {
    forall k :: k in reg ==> reg[k] != {}
  }

  /** Every socket is registered under at most one key. */
  ghost predicate SocketsDisjoint<K, S>(reg: map<K, set<S>>) {
    forall k1, k2, s :: k1 in reg && k2 in reg && s in reg[k1] && s in reg[k2] ==> k1 == k2
  }

  /** No entry holds socket `s`. */
  ghost predicate Unregistered<K, S>(reg: map<K, set<S>>, s: S) {
    forall k :: k in reg ==> s !in reg[k]
  }

  /** Every other key keeps exactly its entry (or its absence). */
  ghost predicate OthersUnchanged<K, S>(reg: map<K, set<S>>, reg': map<K, set<S>>, k: K) {
    && reg'.Keys - {k} == reg.Keys - {k}
    && forall j :: j in reg && j != k ==> j in reg' && reg'[j] == reg[j]
  }

  /** Connect: add socket `s` to user `k`'s set, creating the set if absent. */
  function Add<K, S>(reg: map<K, set<S>>, k: K, s: S): (r: map<K, set<S>>)
    ensures k in r && r[k] == Entry(reg, k) + {s}
    ensures OthersUnchanged(reg, r, k)
    ensures NoEmptyEntry(reg) ==> NoEmptyEntry(r)
    ensures SocketsDisjoint(reg) && Unregistered(reg, s) ==> SocketsDisjoint(r)
  {
    reg[k := Entry(reg, k) + {s}]
  }

  /** Disconnect: remove socket `s` from user `k`'s set and drop the entry once it is empty. */
  function Remove<K, S>(reg: map<K, set<S>>, k: K, s: S): (r: map<K, set<S>>)
    ensures Entry(r, k) == Entry(reg, k) - {s}
    ensures k !in r <==> Entry(reg, k) <= {s}
    ensures OthersUnchanged(reg, r, k)
    ensures NoEmptyEntry(reg) ==> NoEmptyEntry(r)
    ensures SocketsDisjoint(reg) ==> SocketsDisjoint(r)
  {
    if k in reg then
      var rest := reg[k] - {s};
      if rest == {} then reg - {k} else reg[k := rest]
    else reg
  }

  /** Connecting a fresh socket and disconnecting it again restores the registry exactly. */
  lemma RemoveUndoesAdd<K, S>(reg: map<K, set<S>>, k: K, s: S)
    requires NoEmptyEntry(reg)
    requires Unregistered(reg, s)
    ensures Remove(Add(reg, k, s), k, s) == reg
  {
    var r := Remove(Add(reg, k, s), k, s);
    assert Entry(r, k) == Entry(reg, k);
    assert r.Keys == reg.Keys;
  }
}

=== FILE: resolver.dfy ===
/**
 The conversation resolver shared by `message:send` and the `with/:userId`
 route: find a conversation containing both ids, otherwise create one with
 participants `[a, b]`, and if that create throws, find once more.

 Each handler is one atomic step. The only interleaving kept is the one the
 find-create-find protocol exists for: conversations other connections insert
 between this step's first find and its create (`Race.interleaved`), and
 whether this step's create succeeds. The schema declares only a non-unique
 index on `participants`, so nothing in the store rejects a duplicate pair.
 */
module Resolver {
  import opened Types
  import opened Model

  /** `{participants: {$all: [a, b]}}`: the conversation contains both ids, in any order, possibly with others. */
  predicate Matches(c: Conversation, a: Oid, b: Oid) {
    a in c.participants && b in c.participants
  }

  /** `Conversation.findOne(...)` with that filter: the first matching conversation in store order. */
  function FindPair(cs: seq<Conversation>, a: Oid, b: Oid): Option<nat> {
    FindFirst(cs, (c: Conversation) => Matches(c, a, b))
  }

  /** What happens between this step's first find and its create. */
  datatype Race = Race(interleaved: seq<Conversation>, createSucceeds: bool)

  /** Sequential execution: nobody else inserts anything and the create succeeds. */
  const Sequential := Race([], true)

  datatype Path = Existing | Created | Refound | Unresolved

  /** The store's conversations afterwards and the index of the conversation resolved, if any. */
  datatype Resolution = Resolution(conversations: seq<Conversation>, index: Option<nat>, path: Path)

  /** The document `Conversation.create` writes for a new pair. */
  function Fresh(id: Oid, a: Oid, b: Oid, now: nat): Conversation {
    Conversation(id, [a, b], "", now)
  }

  /** Find, else create `[a, b]` with an empty last message, else re-find; Unresolved when the re-find finds nothing. */
  function Resolve(cs: seq<Conversation>, a: Oid, b: Oid, race: Race, newId: Oid, now: nat): (r: Resolution)
    ensures r.index.Some? ==> r.index.value < |r.conversations| && Matches(r.conversations[r.index.value], a, b)
    ensures r.index.None? <==> r.path == Unresolved
    ensures FindPair(cs, a, b).Some? ==> r == Resolution(cs, FindPair(cs, a, b), Existing)
    ensures FindPair(cs, a, b).None? ==>
      |cs| + |race.interleaved| <= |r.conversations| && r.conversations[..|cs| + |race.interleaved|] == cs + race.interleaved
    ensures FindPair(cs, a, b).None? && race.createSucceeds ==>
      && r.path == Created
      && r.conversations == cs + race.interleaved + [Fresh(newId, a, b, now)]
      && r.index == Some(|cs| + |race.interleaved|)
    ensures FindPair(cs, a, b).None? && !race.createSucceeds ==>
      && r.conversations == cs + race.interleaved
      && r.index == FindPair(cs + race.interleaved, a, b)
      && (r.index.Some? ==> r.index.value >= |cs| && r.path == Refound)
  {
    match FindPair(cs, a, b)
    case Some(i) => Resolution(cs, Some(i), Existing)
    case None =>
      var after := cs + race.interleaved;
      if race.createSucceeds then
        Resolution(after + [Fresh(newId, a, b, now)], Some(|after|), Created)
      else
        match FindPair(after, a, b)
        case Some(j) => Resolution(after, Some(j), Refound)
        case None => Resolution(after, None, Unresolved)
  }

  /** The match is order-independent: both argument orders find the same conversation. */
  lemma FindPairSymmetric(cs: seq<Conversation>, a: Oid, b: Oid)
    ensures FindPair(cs, a, b) == FindPair(cs, b, a)
  {
  }

  /** Resolving `(a, b)` and then `(b, a)` in sequence returns the first call's conversation and creates nothing. */
  lemma ResolveTwice(cs: seq<Conversation>, a: Oid, b: Oid, race: Race, id1: Oid, t1: nat, race2: Race, id2: Oid, t2: nat)
    requires race.interleaved == [] || !race.createSucceeds
    requires Resolve(cs, a, b, race, id1, t1).index.Some?
    ensures var r1 := Resolve(cs, a, b, race, id1, t1);
            Resolve(r1.conversations, b, a, race2, id2, t2) == Resolution(r1.conversations, r1.index, Existing)
  {
    var r1 := Resolve(cs, a, b, race, id1, t1);
    FindPairSymmetric(r1.conversations, a, b);
    if FindPair(cs, a, b).None? && race.createSucceeds {
      assert r1.conversations == cs + [Fresh(id1, a, b, t1)];
      forall j | 0 <= j < |cs|
        ensures !Matches(r1.conversations[j], a, b)
      {
        assert r1.conversations[j] == cs[j];
      }
    }
  }

  /** For any two distinct ids, at most one conversation contains both. */
  ghost predicate UniquePairs(cs: seq<Conversation>) {
    forall i, j, x, y :: 0 <= i < j < |cs| && x != y && Matches(cs[i], x, y) ==> !Matches(cs[j], x, y)
  }

  /** Sequential resolution never creates a second conversation for a pair of distinct users. */
  lemma ResolveKeepsPairsUnique(cs: seq<Conversation>, a: Oid, b: Oid, newId: Oid, now: nat)
    requires UniquePairs(cs)
    ensures UniquePairs(Resolve(cs, a, b, Sequential, newId, now).conversations)
  {
    var r := Resolve(cs, a, b, Sequential, newId, now);
    if FindPair(cs, a, b).None? {
      var c := Fresh(newId, a, b, now);
      assert r.conversations == cs + [c];
    }
  }

  /** Under a real race the code does produce two conversations for one pair: both creators find nothing and both creates succeed. */
  lemma ConcurrentCreatesDuplicate()
    ensures var rival := Fresh("c1", "b", "a", 0);
            var r := Resolve([], "a", "b", Race([rival], true), "c2", 0);
            r.path == Created && |r.conversations| == 2
            && Matches(r.conversations[0], "a", "b") && Matches(r.conversations[1], "a", "b")
            && !UniquePairs(r.conversations)
  {
    var r := Resolve([], "a", "b", Race([Fresh("c1", "b", "a", 0)], true), "c2", 0);
    assert r.conversations == [Fresh("c1", "b", "a", 0), Fresh("c2", "a", "b", 0)];
    assert Matches(r.conversations[0], "a", "b");
  }

  /** Resolving a user with themself (no self-check) finds any conversation that merely contains that user. */
  lemma SelfResolvesToAnyContaining(cs: seq<Conversation>, a: Oid, race: Race, newId: Oid, now: nat, i: nat)
    requires i < |cs| && a in cs[i].participants
    requires forall j :: 0 <= j < i ==> a !in cs[j].participants
    ensures Resolve(cs, a, a, race, newId, now) == Resolution(cs, Some(i), Existing)
  {
  }
}

=== FILE: routes.dfy ===
/**
 The conversation REST routes behind the `auth` middleware: the caller's
 conversation list, one conversation's messages by page, and find-or-create of
 the conversation with another user. Each takes `req.user.id` as `me`. Only
 find-or-create writes to the store; the other two return a reply alone.
 */
module ConversationRoutes {
  import opened Types
  import opened Model
  import opened Http
  import opened Text
  import opened Sorting
  import opened Resolver
  import Socket
  import Events

  // ---------------------------------------------------------------- GET /

  /** `Conversation.find({participants: me})`, in store order. */
  function Participating(cs: seq<Conversation>, me: Oid): (r: seq<Conversation>)
    ensures forall c :: c in r <==> c in cs && me in c.participants
    ensures forall c :: multiset(r)[c] == if me in c.participants then multiset(cs)[c] else 0
  {
    if |cs| == 0 then []
    else
      var rest := Participating(cs[1..], me);
      assert cs == [cs[0]] + cs[1..];
      if me in cs[0].participants then [cs[0]] + rest else rest
  }

  /** The sort key of `.sort({lastMessageAt: -1})`. */
  function NewestFirst(c: Conversation): int {
    -(c.lastMessageAt as int)
  }

  /**
   GET /: the caller's conversations, most recently active first. A caller id
   that is not a valid ObjectId makes the query throw (500); an undefined one
   matches nothing.
   */
  function ListConversations(env: Env, store: Store, me: UserRef): (r: Reply)
    ensures me.Some? && !env.validId(me.value) ==> r == ServerError
    ensures me.None? ==> r == Respond(200, ConversationList([]))
    ensures me.Some? && env.validId(me.value) ==>
      && r.Respond? && r.status == 200 && r.body.ConversationList?
      && (forall c :: c in r.body.conversations <==> c in store.conversations && me.value in c.participants)
      && multiset(r.body.conversations) == multiset(Participating(store.conversations, me.value))
      && (forall i, j :: 0 <= i < j < |r.body.conversations| ==>
            r.body.conversations[i].lastMessageAt >= r.body.conversations[j].lastMessageAt)
  {
    match me
    case None => Respond(200, ConversationList([]))
    case Some(id) =>
      if !env.validId(id) then ServerError
      else
        var sorted := SortBy(Participating(store.conversations, id), NewestFirst);
        assert forall c :: c in sorted <==> c in multiset(sorted);
        Respond(200, ConversationList(sorted))
  }

  // ---------------------------------------------------------------- GET /:id/messages

  /** `Math.min(parseInt(limit) || 50, 200)`. */
  function EffectiveLimit(q: JsString): (n: int)
    ensures n <= 200
    ensures n != 0
    ensures ParseInt(q).NaN? || ParseInt(q) == Int(0) ==> n == 50
    ensures ParseInt(q).Int? && ParseInt(q).value != 0 && ParseInt(q).value <= 200 ==> n == ParseInt(q).value
    ensures ParseInt(q).Int? && ParseInt(q).value > 200 ==> n == 200
  {
    var v := OrDefault(ParseInt(q), 50);
    if v < 200 then v else 200
  }

  /** `parseInt(skip) || 0`. */
  function EffectiveSkip(q: JsString): (n: int)
    ensures ParseInt(q).NaN? ==> n == 0
    ensures ParseInt(q).Int? ==> n == ParseInt(q).value
  {
    OrDefault(ParseInt(q), 0)
  }

  /** A missing, non-numeric or zero limit is 50, and so is a missing skip's 0. */
  lemma DefaultLimit()
    ensures EffectiveLimit(None) == 50
    ensures EffectiveLimit(Some("abc")) == 50
    ensures EffectiveSkip(None) == 0
  {
    NotANumber("abc");
    NotANumber("undefined");
  }

  /**
   For a decimal query value: 0 falls back to the default 50, a value up to
   200 is kept, a larger one is capped at 200, and a negative one is kept as is.
   */
  lemma LimitOfDecimal(n: nat)
    ensures EffectiveLimit(Some(Decimal(n))) == if n == 0 then 50 else if n <= 200 then n else 200
    ensures EffectiveLimit(Some("-" + Decimal(n))) == if n == 0 then 50 else -(n as int)
  {
    ParseDecimal(n);
  }

  /** A limit after a white-space character, such as the ideographic space U+3000, is read as if the space were not there. */
  lemma SpacedLimit(c: char, n: nat)
    requires IsSpace(c)
    ensures EffectiveLimit(Some([c] + Decimal(n))) == if n == 0 then 50 else if n <= 200 then n else 200
  {
    assert ParseInt(Some([c] + Decimal(n))) == ParseInt(Some(Decimal(n))) by { ParseSkipsSpace(c, Decimal(n)); }
    LimitOfDecimal(n);
  }

  /** `Message.find({conversation: id})`, in store order. */
  function InConversation(msgs: seq<Message>, id: Oid): (r: seq<Message>)
    ensures forall m :: m in r <==> m in msgs && m.conversation == id
  {
    if |msgs| == 0 then []
    else
      var rest := InConversation(msgs[1..], id);
      assert msgs == [msgs[0]] + msgs[1..];
      if msgs[0].conversation == id then [msgs[0]] + rest else rest
  }

  /** The filter keeps every copy of a message of the conversation and no copy of any other. */
  lemma {:induction false} InConversationCounts(msgs: seq<Message>, id: Oid, m: Message)
    ensures multiset(InConversation(msgs, id))[m] == if m.conversation == id then multiset(msgs)[m] else 0
  {
    if |msgs| > 0 {
      InConversationCounts(msgs[1..], id, m);
      assert msgs == [msgs[0]] + msgs[1..];
    }
  }

  /** The sort key of `.sort({createdAt: 1})`. */
  function CreatedAt(m: Message): int {
    m.createdAt
  }

  function Abs(n: int): nat {
    if n < 0 then -n else n
  }

  /**
   `.skip(skip).limit(limit)` on a sorted result; the driver reads a negative limit as its
   absolute value in one batch. MongoDB reads `limit(0)` as "no limit", whereas this window is
   then empty; the message route never passes 0, because `EffectiveLimit` is never 0.
   */
  function Window(s: seq<Message>, skip: nat, limit: int): (r: seq<Message>)
    ensures |r| <= Abs(limit)
    ensures skip >= |s| ==> r == []
    ensures skip < |s| ==> |r| == if |s| - skip < Abs(limit) then |s| - skip else Abs(limit)
    ensures forall i :: 0 <= i < |r| ==> r[i] == s[skip + i]
  {
    if skip >= |s| then []
    else
      var rest := s[skip..];
      if |rest| <= Abs(limit) then rest else rest[..Abs(limit)]
  }

  /** A window of a sequence sorted by creation time is itself sorted by creation time. */
  lemma WindowKeepsOrder(s: seq<Message>, skip: nat, limit: int)
    requires SortedBy(s, CreatedAt)
    ensures var r := Window(s, skip, limit);
      forall i, j :: 0 <= i < j < |r| ==> r[i].createdAt <= r[j].createdAt
  {
    var r := Window(s, skip, limit);
    forall i, j | 0 <= i < j < |r| ensures r[i].createdAt <= r[j].createdAt {
      assert CreatedAt(s[skip + i]) <= CreatedAt(s[skip + j]);
    }
  }

  /**
   `Message.find({conversation: id}).sort({createdAt: 1}).skip(skip).limit(limit)`:
   a window of the conversation's messages, oldest first, starting `skip`
   messages in; when it starts at 0 and the limit covers the whole
   conversation, it is every message of it.
   */
  function ConversationWindow(msgs: seq<Message>, id: Oid, skip: nat, limit: int): (r: seq<Message>)
    ensures |r| <= Abs(limit)
    ensures forall m :: m in r ==> m in msgs && m.conversation == id
    ensures forall i, j :: 0 <= i < j < |r| ==> r[i].createdAt <= r[j].createdAt
    ensures |r| > 0 ==> skip + |r| <= |InConversation(msgs, id)|
    ensures skip >= |InConversation(msgs, id)| ==> r == []
    ensures skip < |InConversation(msgs, id)| ==>
      |r| == if |InConversation(msgs, id)| - skip < Abs(limit) then |InConversation(msgs, id)| - skip else Abs(limit)
    ensures forall i :: 0 <= i < |r| ==> r[i] == SortBy(InConversation(msgs, id), CreatedAt)[skip + i]
    ensures skip == 0 && |InConversation(msgs, id)| <= Abs(limit) ==>
      multiset(r) == multiset(InConversation(msgs, id))
  {
    var all := InConversation(msgs, id);
    var sorted := SortBy(all, CreatedAt);
    assert |sorted| == |all| by {
      assert |multiset(sorted)| == |multiset(all)|;
    }
    var r := Window(sorted, skip, limit);
    WindowKeepsOrder(sorted, skip, limit);
    assert forall m :: m in r ==> m in msgs && m.conversation == id by {
      forall m | m in r ensures m in msgs && m.conversation == id {
        var i :| 0 <= i < |r| && r[i] == m;
        assert m in multiset(sorted);
        assert m in all;
      }
    }
    assert skip == 0 && |all| <= Abs(limit) ==> r == sorted;
    r
  }

  /**
   Two messages of one conversation created at t1 < t2 both appear, in that
   order, in a window that starts at the beginning and covers the conversation.
   */
  lemma WindowKeepsSendOrder(msgs: seq<Message>, id: Oid, limit: int, m1: Message, m2: Message)
    requires m1 in msgs && m2 in msgs
    requires m1.conversation == id && m2.conversation == id && m1.createdAt < m2.createdAt
    requires |InConversation(msgs, id)| <= Abs(limit)
    ensures var page := ConversationWindow(msgs, id, 0, limit);
      exists i, j :: 0 <= i < j < |page| && page[i] == m1 && page[j] == m2
  {
    var all := InConversation(msgs, id);
    var page := ConversationWindow(msgs, id, 0, limit);
    assert m1 in page && m2 in page by {
      assert m1 in all && m2 in all;
      assert multiset(page) == multiset(all);
      assert m1 in multiset(page) && m2 in multiset(page);
    }
    var i :| 0 <= i < |page| && page[i] == m1;
    var j :| 0 <= j < |page| && page[j] == m2;
    assert i != j by {
      assert page[i].createdAt != page[j].createdAt;
    }
  }

  /**
   GET /:id/messages: 400 for an invalid id, 404 for a missing conversation,
   403 for a caller who is not a participant, in that order; otherwise the
   conversation and the requested window of its messages, oldest first. A
   negative skip is rejected by the database (500).
   */
  function MessagePage(env: Env, store: Store, me: UserRef, id: string, limitQ: JsString, skipQ: JsString): (r: Reply)
    ensures !env.validId(id) ==> r == Respond(400, ErrorJson("invalid conversation id"))
    ensures env.validId(id) && FindConversation(store.conversations, id).None? ==>
      r == Respond(404, ErrorJson("Conversation not found"))
    ensures (env.validId(id) && FindConversation(store.conversations, id).Some?
      && Str(me) !in store.conversations[FindConversation(store.conversations, id).value].participants) ==>
      r == Respond(403, ErrorJson("Not a participant of this conversation"))
    ensures (env.validId(id) && FindConversation(store.conversations, id).Some?
      && Str(me) in store.conversations[FindConversation(store.conversations, id).value].participants
      && EffectiveSkip(skipQ) < 0) ==> r == ServerError
    ensures (env.validId(id) && FindConversation(store.conversations, id).Some?
      && Str(me) in store.conversations[FindConversation(store.conversations, id).value].participants
      && EffectiveSkip(skipQ) >= 0) ==>
      r == Respond(200, ConversationPage(store.conversations[FindConversation(store.conversations, id).value],
                                         ConversationWindow(store.messages, id, EffectiveSkip(skipQ), EffectiveLimit(limitQ))))
    ensures r.Respond? && r.status == 200 ==>
      && env.validId(id) && EffectiveSkip(skipQ) >= 0
      && r.body.ConversationPage?
      && r.body.conversation.id == id && r.body.conversation in store.conversations
      && Str(me) in r.body.conversation.participants
      && r.body.messages == ConversationWindow(store.messages, id, EffectiveSkip(skipQ), EffectiveLimit(limitQ))
    ensures r.Respond?
  {
    if !env.validId(id) then Respond(400, ErrorJson("invalid conversation id"))
    else
      match FindConversation(store.conversations, id)
      case None => Respond(404, ErrorJson("Conversation not found"))
      case Some(k) =>
        var c := store.conversations[k];
        if Str(me) !in c.participants then Respond(403, ErrorJson("Not a participant of this conversation"))
        else
          var limit := EffectiveLimit(limitQ);
          var skip := EffectiveSkip(skipQ);
          if skip < 0 then ServerError
          else Respond(200, ConversationPage(c, ConversationWindow(store.messages, id, skip, limit)))
  }

  /** A participant asking for a valid, existing conversation without `limit` or `skip` gets 200 and the first 50 of its messages. */
  lemma DefaultPage(env: Env, store: Store, me: UserRef, id: string)
    requires env.validId(id) && FindConversation(store.conversations, id).Some?
    requires Str(me) in store.conversations[FindConversation(store.conversations, id).value].participants
    ensures var r := MessagePage(env, store, me, id, None, None);
      r.Respond? && r.status == 200 && r.body.ConversationPage?
      && r.body.messages == ConversationWindow(store.messages, id, 0, 50)
  {
    DefaultLimit();
  }

  /**
   On the default first page, two messages of one conversation created at
   t1 < t2 come back in that order while the conversation holds no more than
   the default 50 messages.
   */
  lemma PageKeepsSendOrder(env: Env, store: Store, me: UserRef, id: string, m1: Message, m2: Message)
    requires env.validId(id) && FindConversation(store.conversations, id).Some?
    requires Str(me) in store.conversations[FindConversation(store.conversations, id).value].participants
    requires m1 in store.messages && m2 in store.messages
    requires m1.conversation == id && m2.conversation == id && m1.createdAt < m2.createdAt
    requires |InConversation(store.messages, id)| <= 50
    ensures var r := MessagePage(env, store, me, id, None, None);
      && r.Respond? && r.status == 200 && r.body.ConversationPage?
      && exists i, j :: 0 <= i < j < |r.body.messages| && r.body.messages[i] == m1 && r.body.messages[j] == m2
  {
    DefaultPage(env, store, me, id);
    WindowKeepsSendOrder(store.messages, id, 50, m1, m2);
  }

  // ---------------------------------------------------------------- GET /with/:userId

  /** The store afterwards and the reply. */
  datatype Outcome = Outcome(store: Store, reply: Reply)

  /**
   GET /with/:userId: 400 for a missing other id, for the caller themself, or
   for an invalid id on either side, in that order; otherwise the shared
   resolver's conversation, or 500 when the create throws and the re-find
   finds nothing.
   */
  function WithUser(env: Env, store: Store, me: UserRef, other: string, race: Race, newId: Oid, now: nat): (r: Outcome)
    ensures other == "" ==> r == Outcome(store, Respond(400, ErrorJson("other user id required")))
    ensures other != "" && me == Some(other) ==> r == Outcome(store, Respond(400, ErrorJson("cannot create conversation with self")))
    ensures other != "" && me != Some(other) && (!env.validId(other) || me.None? || !env.validId(me.value)) ==>
      r == Outcome(store, Respond(400, ErrorJson("invalid user id format")))
    ensures r.store.users == store.users && r.store.messages == store.messages
    ensures r.reply.Respond? && r.reply.status == 200 ==>
      && me.Some? && me.value != other && env.validId(me.value) && env.validId(other)
      && r.reply.body.OneConversation?
      && r.reply.body.conversation in r.store.conversations
      && Matches(r.reply.body.conversation, me.value, other)
    ensures me.Some? && other != "" && me.value != other && env.validId(me.value) && env.validId(other) ==>
      var found := FindPair(store.conversations, me.value, other);
      && (found.Some? ==> r == Outcome(store, Respond(200, OneConversation(store.conversations[found.value]))))
      && var after := store.conversations + race.interleaved;
      && (found.None? && race.createSucceeds ==>
            r == Outcome(store.(conversations := after + [Fresh(newId, me.value, other, now)]),
                         Respond(200, OneConversation(Fresh(newId, me.value, other, now)))))
      && (found.None? && !race.createSucceeds && FindPair(after, me.value, other).Some? ==>
            r == Outcome(store.(conversations := after), Respond(200, OneConversation(after[FindPair(after, me.value, other).value]))))
      && (found.None? && !race.createSucceeds && FindPair(after, me.value, other).None? ==>
            r == Outcome(store.(conversations := after), ServerError))
  {
    if other == "" then Outcome(store, Respond(400, ErrorJson("other user id required")))
    else if me == Some(other) then Outcome(store, Respond(400, ErrorJson("cannot create conversation with self")))
    else if !env.validId(other) || me.None? || !env.validId(me.value) then
      Outcome(store, Respond(400, ErrorJson("invalid user id format")))
    else
      var res := Resolve(store.conversations, me.value, other, race, newId, now);
      var store' := store.(conversations := res.conversations);
      match res.index
      case None => Outcome(store', ServerError)
      case Some(i) => Outcome(store', Respond(200, OneConversation(res.conversations[i])))
  }

  /**
   A second sequential call for the same pair, from either side, returns the
   conversation the first call returned and adds nothing to the store.
   */
  lemma WithUserTwice(env: Env, store: Store, a: Oid, b: Oid, race: Race, id1: Oid, t1: nat, race2: Race, id2: Oid, t2: nat, swap: bool)
    requires race.interleaved == [] || !race.createSucceeds
    requires a != ""
    requires var r1 := WithUser(env, store, Some(a), b, race, id1, t1); r1.reply.Respond? && r1.reply.status == 200
    ensures var r1 := WithUser(env, store, Some(a), b, race, id1, t1);
      var r2 := if swap then WithUser(env, r1.store, Some(b), a, race2, id2, t2) else WithUser(env, r1.store, Some(a), b, race2, id2, t2);
      r2 == Outcome(r1.store, r1.reply)
  {
    var res := Resolve(store.conversations, a, b, race, id1, t1);
    ResolveTwice(store.conversations, a, b, race, id1, t1, race2, id2, t2);
    FindPairSymmetric(res.conversations, a, b);
    var r1 := WithUser(env, store, Some(a), b, race, id1, t1);
    assert r1.store.conversations == res.conversations;
    assert r1.reply == Respond(200, OneConversation(res.conversations[res.index.value]));
  }

  /**
   Both call sites share one resolver: after the route opens the conversation
   of `a` with `b`, a message `a` then sends to `b` lands in the conversation
   the route returned, and the send creates no second one.
   */
  lemma RouteThenSendAgree(env: Env, store: Store, sessions: Events.Sessions, a: Oid, b: Oid,
                           newId: Oid, now: nat, text: string, ctx: Socket.SendContext)
    requires a != b && env.validId(a) && env.validId(b) && b != "" && text != ""
    ensures var route := WithUser(env, store, Some(a), b, Sequential, newId, now);
      var st := Socket.OnSend(env, Socket.Server(sessions, route.store), Some(a),
                              Some(Socket.SendPayload(Some(b), Some(text))), ctx);
      && route.reply.Respond? && route.reply.status == 200
      && |st.server.store.conversations| == |route.store.conversations|
      && |st.server.store.messages| == |store.messages| + 1
      && st.server.store.messages[|store.messages|].conversation == route.reply.body.conversation.id
  {
    var cs := store.conversations;
    var route := WithUser(env, store, Some(a), b, Sequential, newId, now);
    var k: nat :| FindPair(route.store.conversations, a, b) == Some(k)
      && route.reply == Respond(200, OneConversation(route.store.conversations[k]))
      && route.store.messages == store.messages by {
      match FindPair(cs, a, b)
      case Some(k) =>
        assert route.store == store;
      case None =>
        var cs' := cs + [Fresh(newId, a, b, now)];
        assert route.store.conversations == cs';
        assert forall j :: 0 <= j < |cs| ==> cs'[j] == cs[j];
        assert Matches(cs'[|cs|], a, b);
        assert FindPair(cs', a, b) == Some(|cs|);
    }
    Socket.SendIntoExisting(env, Socket.Server(sessions, route.store), a, b, text, ctx);
  }
}

=== FILE: socket.dfy ===
/**
 The Socket.IO connection handlers: connect (registry and presence),
 `message:send`, `typing:start`/`typing:stop`, `message:read` and disconnect.
 Each handler is one atomic step from a server state to a new state plus the
 events it emits. The registry update in connect and disconnect happens before
 the handler's first `await`. The connect handler, however, attaches the other
 listeners only after awaiting its presence write. A disconnect or send that
 arrives during that await is never handled, and this model does not capture
 that window: it treats the listeners as attached at once.
 */
module Socket {
  import opened Types
  import opened Model
  import opened Events
  import opened Resolver
  import Registry

  /** The live sessions and the persisted store. */
  datatype Server = Server(sessions: Sessions, store: Store)

  datatype Step = Step(server: Server, events: seq<Event>)

  // ---------------------------------------------------------------- connect / disconnect

  const Online := "presence:online"
  const Offline := "presence:offline"

  /**
   A connection accepted by the gate for `user`: register the socket, mark the
   user online and announce it to everybody. The announcement is made on every
   connect, not only the first; it is skipped only when the presence write
   throws (a defined id that is not a valid ObjectId).
   */
  function OnConnect(env: Env, srv: Server, sock: SocketId, user: UserRef, now: nat): (st: Step)
    ensures st.server.sessions == Registry.Add(srv.sessions, user, sock)
    ensures st.server.store.conversations == srv.store.conversations
    ensures st.server.store.messages == srv.store.messages
    ensures st.events == [] || st.events == [Emit(All, Online, PresenceOnline(user))]
    ensures st.events != [] <==> user.None? || env.validId(user.value)
    ensures st.events != [] ==> st.server.store.users == WritePresence(env, srv.store.users, user, PresencePatch(true, now)).users
    ensures st.events == [] ==> st.server.store.users == srv.store.users
  {
    var sessions := Registry.Add(srv.sessions, user, sock);
    match WritePresence(env, srv.store.users, user, PresencePatch(true, now))
    case CastFailed => Step(srv.(sessions := sessions), [])
    case Written(us) =>
      Step(Server(sessions, srv.store.(users := us)), [Emit(All, Online, PresenceOnline(user))])
  }

  /**
   A disconnect: remove the socket from its user's set, dropping the entry once
   it is empty; when the user has no entry afterwards, mark them offline and
   announce it to everybody.
   */
  function OnDisconnect(env: Env, srv: Server, sock: SocketId, user: UserRef, now: nat): (st: Step)
    ensures st.server.sessions == Registry.Remove(srv.sessions, user, sock)
    ensures st.server.store.conversations == srv.store.conversations
    ensures st.server.store.messages == srv.store.messages
    ensures st.events == [] || st.events == [Emit(All, Offline, PresenceOffline(user, now))]
    ensures st.events != [] <==> user !in st.server.sessions && (user.None? || env.validId(user.value))
    ensures st.events != [] ==> st.server.store.users == WritePresence(env, srv.store.users, user, PresencePatch(false, now)).users
    ensures st.events == [] ==> st.server.store.users == srv.store.users
  {
    var sessions := Registry.Remove(srv.sessions, user, sock);
    if user in sessions then Step(srv.(sessions := sessions), [])
    else
      match WritePresence(env, srv.store.users, user, PresencePatch(false, now))
      case CastFailed => Step(srv.(sessions := sessions), [])
      case Written(us) =>
        Step(Server(sessions, srv.store.(users := us)), [Emit(All, Offline, PresenceOffline(user, now))])
  }

  /** Connect and disconnect keep the registry free of empty sets. */
  lemma PresenceKeepsRegistryInvariant(env: Env, srv: Server, sock: SocketId, user: UserRef, now: nat)
    requires Registry.NoEmptyEntry(srv.sessions)
    ensures Registry.NoEmptyEntry(OnConnect(env, srv, sock, user, now).server.sessions)
    ensures Registry.NoEmptyEntry(OnDisconnect(env, srv, sock, user, now).server.sessions)
  {
  }

  predicate Distinct(socks: seq<SocketId>) {
    forall i, j :: 0 <= i < j < |socks| ==> socks[i] != socks[j]
  }

  /** Disconnecting the given sockets of `user` one after the other. */
  function DisconnectAll(env: Env, srv: Server, user: UserRef, socks: seq<SocketId>, now: nat): Step
    decreases |socks|
  {
    if |socks| == 0 then Step(srv, [])
    else
      var before := DisconnectAll(env, srv, user, socks[..|socks| - 1], now);
      var last := OnDisconnect(env, before.server, socks[|socks| - 1], user, now);
      Step(last.server, before.events + last.events)
  }

  /** While some socket of the user is still connected, disconnects emit nothing and change no user. */
  lemma {:induction false} DisconnectsBeforeLast(env: Env, srv: Server, user: UserRef, socks: seq<SocketId>, now: nat)
    requires Distinct(socks)
    requires forall i :: 0 <= i < |socks| ==> socks[i] in Registry.Entry(srv.sessions, user)
    requires |socks| < |Registry.Entry(srv.sessions, user)|
    ensures var st := DisconnectAll(env, srv, user, socks, now);
      && st.events == []
      && user in st.server.sessions
      && st.server.store == srv.store
      && (forall x :: x in Registry.Entry(st.server.sessions, user) <==> x in Registry.Entry(srv.sessions, user) && x !in socks)
      && |Registry.Entry(st.server.sessions, user)| == |Registry.Entry(srv.sessions, user)| - |socks|
    decreases |socks|
  {
    if |socks| > 0 {
      var prefix := socks[..|socks| - 1];
      var x := socks[|socks| - 1];
      assert Distinct(prefix);
      assert forall i :: 0 <= i < |prefix| ==> prefix[i] == socks[i];
      DisconnectsBeforeLast(env, srv, user, prefix, now);
      var before := DisconnectAll(env, srv, user, prefix, now);
      assert x !in prefix;
      DisconnectOneOfSeveral(env, before.server, x, user, now);
      var last := OnDisconnect(env, before.server, x, user, now);
      var st := DisconnectAll(env, srv, user, socks, now);
      assert st == Step(last.server, before.events + last.events);
      assert st.events == [];
      assert st.server.store == srv.store;
      var e := Registry.Entry(before.server.sessions, user);
      assert Registry.Entry(st.server.sessions, user) == e - {x};
      DropLastSocket(Registry.Entry(srv.sessions, user), e, socks);
    }
  }

  /** Set bookkeeping for the induction step: removing the last socket of `socks` from what the earlier ones left. */
  lemma DropLastSocket(e0: set<SocketId>, e: set<SocketId>, socks: seq<SocketId>)
    requires |socks| > 0
    requires forall y :: y in e <==> y in e0 && y !in socks[..|socks| - 1]
    ensures forall y :: y in e - {socks[|socks| - 1]} <==> y in e0 && y !in socks
  {
    var prefix := socks[..|socks| - 1];
    forall y
      ensures y in e - {socks[|socks| - 1]} <==> y in e0 && y !in socks
    {
      if y in socks {
        var i :| 0 <= i < |socks| && socks[i] == y;
        assert i < |prefix| ==> prefix[i] == y;
      }
      if y in prefix {
        var i :| 0 <= i < |prefix| && prefix[i] == y;
        assert socks[i] == y;
      }
    }
  }

  /** Disconnecting one of two or more sockets of a user emits nothing and changes only that user's set. */
  lemma DisconnectOneOfSeveral(env: Env, srv: Server, sock: SocketId, user: UserRef, now: nat)
    requires sock in Registry.Entry(srv.sessions, user)
    requires |Registry.Entry(srv.sessions, user)| >= 2
    ensures var st := OnDisconnect(env, srv, sock, user, now);
      && st.events == []
      && user in st.server.sessions
      && st.server.store == srv.store
      && Registry.Entry(st.server.sessions, user) == Registry.Entry(srv.sessions, user) - {sock}
      && |Registry.Entry(st.server.sessions, user)| == |Registry.Entry(srv.sessions, user)| - 1
  {
    var e := Registry.Entry(srv.sessions, user);
    assert |e - {sock}| == |e| - 1;
    assert !(e <= {sock});
  }

  /** A user with k live sockets: the first k-1 disconnects announce nothing, the last one announces offline exactly once. */
  lemma LastDisconnectGoesOffline(env: Env, srv: Server, user: UserRef, socks: seq<SocketId>, now: nat)
    requires user.None? || env.validId(user.value)
    requires Distinct(socks)
    requires forall i :: 0 <= i < |socks| ==> socks[i] in Registry.Entry(srv.sessions, user)
    requires |socks| == |Registry.Entry(srv.sessions, user)| > 0
    ensures DisconnectAll(env, srv, user, socks[..|socks| - 1], now).events == []
    ensures DisconnectAll(env, srv, user, socks, now).events == [Emit(All, Offline, PresenceOffline(user, now))]
    ensures user !in DisconnectAll(env, srv, user, socks, now).server.sessions
  {
    var prefix := socks[..|socks| - 1];
    assert Distinct(prefix);
    DisconnectsBeforeLast(env, srv, user, prefix, now);
    var before := DisconnectAll(env, srv, user, prefix, now);
    var x := socks[|socks| - 1];
    assert x !in prefix;
    var e := Registry.Entry(before.server.sessions, user);
    assert x in e && |e| == 1;
    assert |e - {x}| == 0;
    assert e <= {x};
    var last := OnDisconnect(env, before.server, x, user, now);
    assert DisconnectAll(env, srv, user, socks, now) == Step(last.server, before.events + last.events);
  }

  // ---------------------------------------------------------------- message:send

  /** The `message:send` payload fields `to` and `text`. */
  datatype SendPayload = SendPayload(to: JsString, text: JsString)

  /** The values the environment supplies to one send: the id `new ObjectId(undefined)` would generate, the race around the conversation create, the ids of new documents, and the clock. */
  datatype SendContext = SendContext(freshId: Oid, race: Race, conversationId: Oid, messageId: Oid, now: nat)

  const SendEvent := "message:send"

  predicate MissingFields(payload: Option<SendPayload>) {
    payload.None? || !Truthy(payload.value.to) || !Truthy(payload.value.text)
  }

  /** `new ObjectId(userId)`: an undefined id yields a freshly generated one; an invalid string throws. */
  function CastUser(env: Env, user: UserRef, generated: Oid): Option<Oid> {
    match user
    case None => Some(generated)
    case Some(s) => if env.validId(s) then Some(s) else None
  }

  /** The message stored by a successful send and everybody who is told about it. */
  function Delivery(m: Message): seq<Event> {
    [ Emit(Room(m.to), "message:new", NewMessage(m)),
      Emit(Room(m.from), "message:new", NewMessage(m)),
      Emit(Origin, "message:sent", Sent(m.id, m.conversation)) ]
  }

  /**
   `message:send`: validate the payload and both ids, resolve the conversation,
   store the message, update the conversation summary, then deliver it to both
   users' rooms and acknowledge it to the sending socket. Any failure reports an
   error to the sending socket only.
   */
  function OnSend(env: Env, srv: Server, user: UserRef, payload: Option<SendPayload>, ctx: SendContext): (st: Step)
    ensures st.server.sessions == srv.sessions
    ensures st.server.store.users == srv.store.users
    ensures MissingFields(payload) ==> st == Step(srv, [ErrorTo(SendEvent, "Missing fields")])
    ensures !MissingFields(payload) && (CastUser(env, user, ctx.freshId).None? || !env.validId(payload.value.to.value)) ==>
      st == Step(srv, [ErrorTo(SendEvent, "Invalid user id format")])
    ensures |srv.store.messages| <= |st.server.store.messages| <= |srv.store.messages| + 1
    ensures st.server.store.messages[..|srv.store.messages|] == srv.store.messages
    ensures |st.server.store.messages| == |srv.store.messages| ==>
      st.server.store.messages == srv.store.messages && |st.events| == 1 && st.events[0].target == Origin && st.events[0].name == "error"
    ensures |st.server.store.messages| > |srv.store.messages| ==>
      var m := st.server.store.messages[|srv.store.messages|];
      && !MissingFields(payload)
      && m == Message(ctx.messageId, m.conversation, CastUser(env, user, ctx.freshId).value, payload.value.to.value, payload.value.text.value, false, ctx.now)
      && st.events == Delivery(m)
      && (exists i :: 0 <= i < |st.server.store.conversations| && Summarises(st.server.store.conversations[i], m))
    ensures !MissingFields(payload) && CastUser(env, user, ctx.freshId).Some? && env.validId(payload.value.to.value) ==>
      var from := CastUser(env, user, ctx.freshId).value;
      var found := FindPair(srv.store.conversations, from, payload.value.to.value);
      found.Some? ==> SendsInto(srv, st, found.value)
    ensures !MissingFields(payload) && CastUser(env, user, ctx.freshId).Some? && env.validId(payload.value.to.value) ==>
      var from := CastUser(env, user, ctx.freshId).value;
      var to := payload.value.to.value;
      var after := srv.store.conversations + ctx.race.interleaved;
      (FindPair(srv.store.conversations, from, to).None? && ctx.race.createSucceeds) ==>
        var m := Message(ctx.messageId, ctx.conversationId, from, to, payload.value.text.value, false, ctx.now);
        && st.server.store.messages == srv.store.messages + [m]
        && st.events == Delivery(m)
        && st.server.store.conversations == after + [Conversation(ctx.conversationId, [from, to], m.text, ctx.now)]
    ensures !MissingFields(payload) && CastUser(env, user, ctx.freshId).Some? && env.validId(payload.value.to.value) ==>
      var from := CastUser(env, user, ctx.freshId).value;
      var to := payload.value.to.value;
      var after := srv.store.conversations + ctx.race.interleaved;
      (FindPair(srv.store.conversations, from, to).None? && !ctx.race.createSucceeds && FindPair(after, from, to).Some?) ==>
        var j := FindPair(after, from, to).value;
        var m := Message(ctx.messageId, after[j].id, from, to, payload.value.text.value, false, ctx.now);
        && st.server.store.messages == srv.store.messages + [m]
        && st.events == Delivery(m)
        && |st.server.store.conversations| == |after|
        && st.server.store.conversations[j] == after[j].(lastMessage := m.text, lastMessageAt := m.createdAt)
        && (forall k :: 0 <= k < |after| && k != j ==> st.server.store.conversations[k] == after[k])
  {
    if MissingFields(payload) then Step(srv, [ErrorTo(SendEvent, "Missing fields")])
    else
      var to := payload.value.to.value;
      var text := payload.value.text.value;
      match CastUser(env, user, ctx.freshId)
      case None => Step(srv, [ErrorTo(SendEvent, "Invalid user id format")])
      case Some(from) =>
        if !env.validId(to) then Step(srv, [ErrorTo(SendEvent, "Invalid user id format")])
        else
          var res := Resolve(srv.store.conversations, from, to, ctx.race, ctx.conversationId, ctx.now);
          match res.index
          case None =>
            Step(srv.(store := srv.store.(conversations := res.conversations)), [ErrorTo(SendEvent, "Server error")])
          case Some(i) =>
            var c := res.conversations[i];
            var m := Message(ctx.messageId, c.id, from, to, text, false, ctx.now);
            var summary := c.(lastMessage := text, lastMessageAt := m.createdAt);
            var cs' := res.conversations[i := summary];
            assert Summarises(cs'[i], m);
            Step(srv.(store := srv.store.(conversations := cs', messages := srv.store.messages + [m])), Delivery(m))
  }

  /** Conversation `c` is the message's conversation, holds both its users, and summarises it. */
  ghost predicate Summarises(c: Conversation, m: Message) {
    c.id == m.conversation && Matches(c, m.from, m.to) && c.lastMessage == m.text && c.lastMessageAt == m.createdAt
  }

  /** The send stored its message in the existing conversation at index `i`, created none, and touched no other conversation. */
  ghost predicate SendsInto(srv: Server, st: Step, i: nat) {
    var cs := srv.store.conversations;
    var cs' := st.server.store.conversations;
    && i < |cs| && |cs'| == |cs|
    && |st.server.store.messages| == |srv.store.messages| + 1
    && st.server.store.messages[|srv.store.messages|].conversation == cs[i].id
    && cs'[i] == cs[i].(lastMessage := cs'[i].lastMessage, lastMessageAt := cs'[i].lastMessageAt)
    && (forall j :: 0 <= j < |cs| && j != i ==> cs'[j] == cs[j])
  }

  /** With no matching conversation and sequential execution, a send creates exactly one conversation `[from, to]` and stores its message there. */
  lemma FirstContactCreatesOne(env: Env, srv: Server, user: UserRef, payload: Option<SendPayload>, ctx: SendContext)
    requires !MissingFields(payload) && ctx.race == Sequential
    requires CastUser(env, user, ctx.freshId).Some? && env.validId(payload.value.to.value)
    requires FindPair(srv.store.conversations, CastUser(env, user, ctx.freshId).value, payload.value.to.value).None?
    ensures var st := OnSend(env, srv, user, payload, ctx);
      var cs := srv.store.conversations;
      var from := CastUser(env, user, ctx.freshId).value;
      var to := payload.value.to.value;
      && st.server.store.conversations[..|cs|] == cs
      && |st.server.store.conversations| == |cs| + 1
      && st.server.store.conversations[|cs|] == Conversation(ctx.conversationId, [from, to], payload.value.text.value, ctx.now)
      && st.server.store.messages == srv.store.messages + [Message(ctx.messageId, ctx.conversationId, from, to, payload.value.text.value, false, ctx.now)]
  {
  }

  /** When the create throws and the re-find finds nothing, the send fails with "Server error" and stores no message. */
  lemma UnresolvedSendStoresNothing(env: Env, srv: Server, user: UserRef, payload: Option<SendPayload>, ctx: SendContext)
    requires !MissingFields(payload) && !ctx.race.createSucceeds
    requires CastUser(env, user, ctx.freshId).Some? && env.validId(payload.value.to.value)
    requires FindPair(srv.store.conversations + ctx.race.interleaved, CastUser(env, user, ctx.freshId).value, payload.value.to.value).None?
    ensures var st := OnSend(env, srv, user, payload, ctx);
      && st.events == [ErrorTo(SendEvent, "Server error")]
      && st.server.store.messages == srv.store.messages
      && st.server.store.conversations == srv.store.conversations + ctx.race.interleaved
  {
    var from := CastUser(env, user, ctx.freshId).value;
    var to := payload.value.to.value;
    var cs := srv.store.conversations;
    assert FindPair(cs, from, to).None? by {
      forall j | 0 <= j < |cs|
        ensures !Matches(cs[j], from, to)
      {
        assert (cs + ctx.race.interleaved)[j] == cs[j];
      }
    }
  }

  /** A valid send between two users who already share a conversation stores one message in the first such conversation and creates none. */
  lemma SendIntoExisting(env: Env, srv: Server, a: Oid, b: Oid, text: string, ctx: SendContext)
    requires env.validId(a) && env.validId(b) && b != "" && text != ""
    requires FindPair(srv.store.conversations, a, b).Some?
    ensures var st := OnSend(env, srv, Some(a), Some(SendPayload(Some(b), Some(text))), ctx);
      && |st.server.store.conversations| == |srv.store.conversations|
      && |st.server.store.messages| == |srv.store.messages| + 1
      && st.server.store.messages[|srv.store.messages|].conversation
         == srv.store.conversations[FindPair(srv.store.conversations, a, b).value].id
  {
    assert CastUser(env, Some(a), ctx.freshId) == Some(a);
  }

  /**
   Multi-device fan-out: when a user other than the recipient sends, every
   live socket of the recipient receives exactly one event, the `message:new`
   carrying the stored message, whatever socket it is.
   */
  lemma RecipientSocketsGetOneCopy(env: Env, srv: Server, origin: SocketId, user: UserRef, payload: Option<SendPayload>, ctx: SendContext, s: SocketId)
    requires Registry.SocketsDisjoint(srv.sessions)
    requires origin in Registry.Entry(srv.sessions, user)
    requires user.Some? && env.validId(user.value)
    requires !MissingFields(payload) && payload.value.to.value != user.value
    requires var st := OnSend(env, srv, user, payload, ctx); |st.server.store.messages| > |srv.store.messages|
    requires s in Registry.Entry(srv.sessions, Some(payload.value.to.value))
    ensures var st := OnSend(env, srv, user, payload, ctx);
      var m := st.server.store.messages[|srv.store.messages|];
      Inbox(srv.sessions, origin, st.events, s) == [Emit(Room(m.to), "message:new", NewMessage(m))]
  {
    var st := OnSend(env, srv, user, payload, ctx);
    var m := st.server.store.messages[|srv.store.messages|];
    assert m.from == user.value && m.to == payload.value.to.value;
    assert s != origin;
    assert s !in Registry.Entry(srv.sessions, Some(m.from));
    var evs := Delivery(m);
    assert st.events == evs;
    assert evs[1..][1..][1..] == [];
    assert Inbox(srv.sessions, origin, evs[1..], s) == [];
  }

  /** The sending socket receives its own `message:new` echo once and the `message:sent` acknowledgement once. */
  lemma SenderSocketGetsEchoAndAck(env: Env, srv: Server, origin: SocketId, user: UserRef, payload: Option<SendPayload>, ctx: SendContext)
    requires Registry.SocketsDisjoint(srv.sessions)
    requires origin in Registry.Entry(srv.sessions, user)
    requires user.Some? && env.validId(user.value)
    requires !MissingFields(payload) && payload.value.to.value != user.value
    requires var st := OnSend(env, srv, user, payload, ctx); |st.server.store.messages| > |srv.store.messages|
    ensures var st := OnSend(env, srv, user, payload, ctx);
      var m := st.server.store.messages[|srv.store.messages|];
      Inbox(srv.sessions, origin, st.events, origin) ==
        [Emit(Room(m.from), "message:new", NewMessage(m)), Emit(Origin, "message:sent", Sent(m.id, m.conversation))]
  {
    var st := OnSend(env, srv, user, payload, ctx);
    var m := st.server.store.messages[|srv.store.messages|];
    assert m.from == user.value && m.to == payload.value.to.value;
    assert origin !in Registry.Entry(srv.sessions, Some(m.to));
    var evs := Delivery(m);
    assert st.events == evs;
    assert evs[1..][1..][1..] == [];
    assert Inbox(srv.sessions, origin, evs[1..][1..], origin) == [evs[2]];
  }

  // ---------------------------------------------------------------- typing

  datatype TypingKind = Start | Stop

  function TypingName(k: TypingKind): string {
    match k
    case Start => "typing:start"
    case Stop => "typing:stop"
  }

  /** The `typing:start`/`typing:stop` payload fields `to` and `conversationId`. */
  datatype TypingPayload = TypingPayload(to: JsString, conversationId: JsString)

  /** Relay a typing signal to the target user's room; nothing is stored and nothing is validated beyond `to`. */
  function OnTyping(srv: Server, user: UserRef, kind: TypingKind, p: TypingPayload): (st: Step)
    ensures st.server == srv
    ensures st.events == [] <==> !Truthy(p.to)
    ensures |st.events| <= 1
    ensures forall e :: e in st.events ==>
      && e.target == Room(p.to.value) && e.name == TypingName(kind)
      && e.payload.Typing? && e.payload.from == user
      && (e.payload.conversation.None? <==> !Truthy(p.conversationId))
      && (Truthy(p.conversationId) ==> e.payload.conversation == p.conversationId)
  {
    if !Truthy(p.to) then Step(srv, [])
    else
      var cid := if Truthy(p.conversationId) then p.conversationId else None;
      Step(srv, [Emit(Room(p.to.value), TypingName(kind), Typing(user, cid))])
  }

  /** A typing signal reaches every live connection of `to`, once, and no other connection. */
  lemma TypingReachesRecipient(srv: Server, user: UserRef, kind: TypingKind, p: TypingPayload, origin: SocketId, s: SocketId)
    requires Truthy(p.to)
    ensures var st := OnTyping(srv, user, kind, p);
      Inbox(srv.sessions, origin, st.events, s) ==
        if s in Registry.Entry(srv.sessions, Some(p.to.value)) then st.events else []
  {
    var st := OnTyping(srv, user, kind, p);
    assert st.events[1..] == [];
  }

  // ---------------------------------------------------------------- message:read

  /** The `message:read` payload field `conversationId`. */
  datatype ReadPayload = ReadPayload(conversationId: JsString)

  /** The update's filter `{conversation: cid, to: userId, read: false}`; an undefined reader matches nothing. */
  predicate Unread(m: Message, cid: Oid, reader: UserRef) {
    m.conversation == cid && reader == Some(m.to) && !m.read
  }

  /** `Message.updateMany(filter, {$set: {read: true}})`. */
  function MarkRead(msgs: seq<Message>, cid: Oid, reader: UserRef): (r: seq<Message>)
    ensures |r| == |msgs|
    ensures forall i :: 0 <= i < |msgs| ==> r[i] == msgs[i].(read := r[i].read)
    ensures forall i :: 0 <= i < |msgs| ==> r[i].read == (msgs[i].read || (msgs[i].conversation == cid && reader == Some(msgs[i].to)))
  {
    seq(|msgs|, i requires 0 <= i < |msgs| => if Unread(msgs[i], cid, reader) then msgs[i].(read := true) else msgs[i])
  }

  /** Marking read twice marks nothing more the second time. */
  lemma MarkReadIdempotent(msgs: seq<Message>, cid: Oid, reader: UserRef)
    ensures MarkRead(MarkRead(msgs, cid, reader), cid, reader) == MarkRead(msgs, cid, reader)
  {
  }

  /** `participants.find(p => String(p) !== me)`. */
  function FirstOther(ps: seq<Oid>, me: string): (r: Option<Oid>)
    ensures r.Some? ==> r.value in ps && r.value != me
    ensures r.None? <==> forall p :: p in ps ==> p == me
    ensures r.Some? ==> exists i :: 0 <= i < |ps| && ps[i] == r.value && forall j :: 0 <= j < i ==> ps[j] == me
  {
    if |ps| == 0 then None
    else if ps[0] != me then Some(ps[0])
    else
      var r := FirstOther(ps[1..], me);
      assert forall p :: p in ps ==> p == ps[0] || p in ps[1..];
      if r.Some? then
        assert exists i :: 0 <= i < |ps[1..]| && ps[1..][i] == r.value && forall j :: 0 <= j < i ==> ps[1..][j] == me;
        var i :| 0 <= i < |ps[1..]| && ps[1..][i] == r.value && forall j :: 0 <= j < i ==> ps[1..][j] == me;
        assert ps[i + 1] == r.value && forall j :: 0 <= j < i + 1 ==> ps[j] == me;
        r
      else r
  }

  /**
   `message:read`: mark read every unread message of the conversation addressed
   to the reader, then tell the first other participant. A falsy id does
   nothing; an id (conversation or reader) that is not a valid ObjectId makes
   the update throw, which the handler's catch swallows.
   */
  function OnRead(env: Env, srv: Server, user: UserRef, p: ReadPayload): (st: Step)
    ensures st.server.sessions == srv.sessions
    ensures st.server.store.users == srv.store.users
    ensures st.server.store.conversations == srv.store.conversations
    ensures !Truthy(p.conversationId) ==> st == Step(srv, [])
    ensures Truthy(p.conversationId) && env.validId(p.conversationId.value) && (user.None? || env.validId(user.value)) ==>
      st.server.store.messages == MarkRead(srv.store.messages, p.conversationId.value, user)
    ensures !(Truthy(p.conversationId) && env.validId(p.conversationId.value) && (user.None? || env.validId(user.value))) ==>
      st.server.store.messages == srv.store.messages
    ensures |st.events| <= 1
    ensures st.events != [] ==>
      var cid := p.conversationId.value;
      && Truthy(p.conversationId)
      && FindConversation(srv.store.conversations, cid).Some?
      && var c := srv.store.conversations[FindConversation(srv.store.conversations, cid).value];
      && FirstOther(c.participants, Str(user)).Some?
      && st.events[0].target == Room(FirstOther(c.participants, Str(user)).value)
      && st.events[0].name == "message:read" && st.events[0].payload == ReadReceipt(cid, user)
    ensures st.events != [] <==>
      && Truthy(p.conversationId) && env.validId(p.conversationId.value) && (user.None? || env.validId(user.value))
      && FindConversation(srv.store.conversations, p.conversationId.value).Some?
      && exists q :: q in srv.store.conversations[FindConversation(srv.store.conversations, p.conversationId.value).value].participants && q != Str(user)
  {
    if !Truthy(p.conversationId) then Step(srv, [])
    else
      var cid := p.conversationId.value;
      if !env.validId(cid) || (user.Some? && !env.validId(user.value)) then Step(srv, [])
      else
        var marked := srv.(store := srv.store.(messages := MarkRead(srv.store.messages, cid, user)));
        match FindConversation(srv.store.conversations, cid)
        case None => Step(marked, [])
        case Some(i) =>
          match FirstOther(srv.store.conversations[i].participants, Str(user))
          case None => Step(marked, [])
          case Some(other) => Step(marked, [Emit(Room(other), "message:read", ReadReceipt(cid, user))])
  }

  /** A repeated `message:read` changes nothing more and notifies the counterpart again, identically. */
  lemma ReadTwice(env: Env, srv: Server, user: UserRef, p: ReadPayload)
    ensures var first := OnRead(env, srv, user, p);
      var second := OnRead(env, first.server, user, p);
      second.server == first.server && second.events == first.events
  {
    if Truthy(p.conversationId) {
      MarkReadIdempotent(srv.store.messages, p.conversationId.value, user);
    }
  }
}

=== FILE: sorting.dfy ===
/**
 Sorting a query result on one numeric key, as `.sort({field: 1})` does:
 an insertion sort over sequences, with its specification (ordered, and a
 permutation of its input) proved once and shared by every route that sorts.
 The database promises no order among equal keys; this sort happens to take
 them in input order, which is one of the orders it may return.
 */
module Sorting {

  /** `s` is in ascending order of `key`. */
  ghost predicate SortedBy<T>(s: seq<T>, key: T -> int) {
    forall i, j :: 0 <= i < j < |s| ==> key(s[i]) <= key(s[j])
  }

  /** Insert `x` into a sorted sequence after every element whose key is not greater. */
  function Insert<T(==)>(x: T, s: seq<T>, key: T -> int): (r: seq<T>)
    requires SortedBy(s, key)
    ensures SortedBy(r, key)
    ensures multiset(r) == multiset(s) + multiset{x}
    ensures |r| == |s| + 1
    ensures r[0] == if |s| > 0 && key(s[0]) <= key(x) then s[0] else x
  {
    if |s| == 0 then [x]
    else if key(x) < key(s[0]) then [x] + s
    else
      var tail := Insert(x, s[1..], key);
      assert s == [s[0]] + s[1..];
      var r := [s[0]] + tail;
      assert key(s[0]) <= key(tail[0]);
      forall i, j | 0 <= i < j < |r| ensures key(r[i]) <= key(r[j]) {
        if i == 0 && j > 1 {
          assert key(tail[0]) <= key(tail[j - 1]);
        }
      }
      r
  }

  /** `s` ordered by ascending `key`. */
  function SortBy<T(==)>(s: seq<T>, key: T -> int): (r: seq<T>)
    ensures SortedBy(r, key)
    ensures multiset(r) == multiset(s)
    ensures |r| == |s|
  {
    if |s| == 0 then []
    else
      assert s == s[..|s| - 1] + [s[|s| - 1]];
      Insert(s[|s| - 1], SortBy(s[..|s| - 1], key), key)
  }
}

=== FILE: text.dfy ===
/**
 The string primitives the handlers rely on: `String.prototype.toLowerCase`
 (ASCII letters), `startsWith`, `split` on one separator character, and the
 global `parseInt` with no radix argument.
 */
module Text {
  import opened Types

  // ---------------------------------------------------------------- lower case

  predicate IsUpper(c: char) {
    'A' <= c <= 'Z'
  }

  function LowerChar(c: char): char {
    if IsUpper(c) then (c as int + 32) as char else c
  }

  /** `s.toLowerCase()`, restricted to the ASCII letters. */
  function Lower(s: string): string {
    seq(|s|, i requires 0 <= i < |s| => LowerChar(s[i]))
  }

  predicate NoUpper(s: string) {
    forall i :: 0 <= i < |s| ==> !IsUpper(s[i])
  }

  /** Lower-casing keeps the length, leaves no upper-case letter, changes nothing but letters, and is idempotent. */
  lemma LowerProperties(s: string)
    ensures |Lower(s)| == |s|
    ensures NoUpper(Lower(s))
    ensures forall i :: 0 <= i < |s| && !IsUpper(s[i]) ==> Lower(s)[i] == s[i]
    ensures Lower(Lower(s)) == Lower(s)
    ensures NoUpper(s) ==> Lower(s) == s
  {
  }

  // ---------------------------------------------------------------- split

  /** `s.split(sep)` for a one-character separator: the fields between separators, at least one. */
  function Split(s: string, sep: char): (fields: seq<string>)
    ensures |fields| >= 1
    ensures forall i :: 0 <= i < |fields| ==> sep !in fields[i]
  {
    if |s| == 0 then [""]
    else
      var rest := Split(s[1..], sep);
      if s[0] == sep then [""] + rest
      else [[s[0]] + rest[0]] + rest[1..]
  }

  /** `fields.join(sep)`. */
  function Join(fields: seq<string>, sep: char): string
    requires |fields| >= 1
  {
    if |fields| == 1 then fields[0]
    else fields[0] + [sep] + Join(fields[1..], sep)
  }

  /** Splitting loses nothing: joining the fields back with the separator gives the original string. */
  lemma {:induction false} JoinSplit(s: string, sep: char)
    ensures Join(Split(s, sep), sep) == s
  {
    if |s| > 0 {
      var rest := Split(s[1..], sep);
      JoinSplit(s[1..], sep);
      assert s == [s[0]] + s[1..];
      if s[0] == sep {
        assert Split(s, sep) == [""] + rest;
        assert ([""] + rest)[1..] == rest;
      } else {
        var fields := [[s[0]] + rest[0]] + rest[1..];
        assert Split(s, sep) == fields;
        if |rest| > 1 {
          assert fields[1..] == rest[1..];
          assert Join(rest, sep) == rest[0] + [sep] + Join(rest[1..], sep);
        }
      }
    }
  }

  /** The longest prefix of `s` that holds no `sep`. */
  function UpTo(s: string, sep: char): (r: string)
    ensures sep !in r
    ensures r == s || (|r| < |s| && s[|r|] == sep)
    ensures r <= s
  {
    if |s| == 0 || s[0] == sep then ""
    else [s[0]] + UpTo(s[1..], sep)
  }

  /** The first field of a split is the text before the first separator. */
  lemma {:induction false} SplitHead(s: string, sep: char)
    ensures Split(s, sep)[0] == UpTo(s, sep)
  {
    if |s| > 0 && s[0] != sep {
      SplitHead(s[1..], sep);
    }
  }

  /** A separator-free head splits off as one field. */
  lemma {:induction false} SplitAfterHead(a: string, t: string, sep: char)
    requires sep !in a
    ensures Split(a + [sep] + t, sep) == [a] + Split(t, sep)
  {
    var s := a + [sep] + t;
    if |a| == 0 {
      assert s[1..] == t;
    } else {
      assert s[1..] == a[1..] + [sep] + t;
      SplitAfterHead(a[1..], t, sep);
      assert [a[0]] + a[1..] == a;
    }
  }

  // ---------------------------------------------------------------- parseInt

  /** A JavaScript number as `parseInt` can return it: NaN or an integer (unbounded here). */
  datatype Num = NaN | Int(value: int)

  /** Unary minus on a parsed number; NaN stays NaN. */
  function Negate(n: Num): Num {
    if n.NaN? then NaN else Int(-n.value)
  }

  /** `n || d` on a parsed number: NaN and 0 are falsy. */
  function OrDefault(n: Num, d: int): int {
    if n.Int? && n.value != 0 then n.value else d
  }

  /**
   The white space `parseInt` skips: ECMAScript's WhiteSpace (tab, vertical tab,
   form feed, space, no-break space, the byte order mark and every other
   Unicode "Zs" space separator) and LineTerminator (line feed, carriage return,
   line and paragraph separators).
   */
  predicate IsSpace(c: char) {
    || c == ' ' || c == '\t' || c == '\n' || c == '\r' || c == '\U{000B}' || c == '\U{000C}'
    || c == '\U{00A0}' || c == '\U{FEFF}' || c == '\U{2028}' || c == '\U{2029}'
    || c == '\U{1680}' || ('\U{2000}' <= c <= '\U{200A}') || c == '\U{202F}' || c == '\U{205F}' || c == '\U{3000}'
  }

  function TrimStart(s: string): string {
    if |s| > 0 && IsSpace(s[0]) then TrimStart(s[1..]) else s
  }

  /** The value of one digit in the given radix (10 or 16), if it is one. */
  function DigitValue(c: char, radix: nat): Option<nat> {
    var d: int :=
      if '0' <= c <= '9' then c as int - '0' as int
      else if 'a' <= c <= 'z' then c as int - 'a' as int + 10
      else if 'A' <= c <= 'Z' then c as int - 'A' as int + 10
      else 36;
    if 0 <= d < radix then Some(d) else None
  }

  predicate IsDigit(c: char, radix: nat) {
    DigitValue(c, radix).Some?
  }

  /** The length of the longest prefix of digits. */
  function DigitRun(s: string, radix: nat): (n: nat)
    ensures n <= |s|
    ensures forall i :: 0 <= i < n ==> IsDigit(s[i], radix)
    ensures n < |s| ==> !IsDigit(s[n], radix)
  {
    if |s| == 0 || !IsDigit(s[0], radix) then 0 else 1 + DigitRun(s[1..], radix)
  }

  /** The value of a string of digits, most significant first. */
  function DigitsValue(s: string, radix: nat): int
    requires forall i :: 0 <= i < |s| ==> IsDigit(s[i], radix)
  {
    if |s| == 0 then 0
    else
      var init := s[..|s| - 1];
      assert forall i :: 0 <= i < |init| ==> init[i] == s[i];
      assert IsDigit(s[|s| - 1], radix);
      DigitsValue(init, radix) * radix + DigitValue(s[|s| - 1], radix).value
  }

  /** `parseInt(v)` with no radix: skip leading white space, one optional sign, a `0x`/`0X` prefix switching to radix 16, then the longest digit prefix; NaN when there is none. `parseInt(undefined)` parses the text "undefined". */
  function ParseInt(v: JsString): Num {
    var s := TrimStart(Str(v));
    var negative := |s| > 0 && s[0] == '-';
    var unsigned := if |s| > 0 && (s[0] == '-' || s[0] == '+') then s[1..] else s;
    var hex := |unsigned| >= 2 && unsigned[0] == '0' && (unsigned[1] == 'x' || unsigned[1] == 'X');
    var radix := if hex then 16 else 10;
    var body := if hex then unsigned[2..] else unsigned;
    var n := DigitRun(body, radix);
    if n == 0 then NaN
    else
      var magnitude: int := DigitsValue(body[..n], radix);
      Int(if negative then -magnitude else magnitude)
  }

  /** Leading white space does not change what `parseInt` reads. */
  lemma ParseSkipsSpace(c: char, s: string)
    requires IsSpace(c)
    ensures ParseInt(Some([c] + s)) == ParseInt(Some(s))
  {
    assert ([c] + s)[1..] == s;
  }

  /** Text that starts with something other than white space, a sign or a decimal digit parses to NaN. */
  lemma NotANumber(s: string)
    requires |s| > 0 && !IsSpace(s[0]) && s[0] != '-' && s[0] != '+' && !IsDigit(s[0], 10)
    ensures ParseInt(Some(s)) == NaN
  {
    assert TrimStart(s) == s;
    assert DigitRun(s, 10) == 0;
  }

  // ---------------------------------------------------------------- decimal rendering

  function DigitChar(d: nat): char
    requires d < 10
  {
    ('0' as int + d) as char
  }

  /** The decimal rendering of a natural number, as `String(n)` gives it. */
  function Decimal(n: nat): (s: string)
    ensures |s| >= 1
    ensures forall i :: 0 <= i < |s| ==> '0' <= s[i] <= '9'
    ensures |s| > 1 ==> s[0] != '0'
    decreases n
  {
    if n < 10 then [DigitChar(n)] else Decimal(n / 10) + [DigitChar(n % 10)]
  }

  lemma {:induction false} DecimalValue(n: nat)
    ensures forall i :: 0 <= i < |Decimal(n)| ==> IsDigit(Decimal(n)[i], 10)
    ensures DigitsValue(Decimal(n), 10) == n
    decreases n
  {
    var s := Decimal(n);
    assert forall i :: 0 <= i < |s| ==> IsDigit(s[i], 10);
    if n >= 10 {
      DecimalValue(n / 10);
      assert s[..|s| - 1] == Decimal(n / 10);
    }
  }

  /** The digit run of digits followed by a non-digit (or nothing) is exactly those digits. */
  lemma {:induction false} DigitRunOfPrefix(d: string, t: string, radix: nat)
    requires forall i :: 0 <= i < |d| ==> IsDigit(d[i], radix)
    requires |t| == 0 || !IsDigit(t[0], radix)
    ensures DigitRun(d + t, radix) == |d|
    ensures (d + t)[..|d|] == d
  {
    var s := d + t;
    if |t| > 0 {
      assert s[|d|] == t[0];
    }
  }

  /**
   `parseInt` reads the longest prefix of decimal digits and ignores what
   follows: "20abc" is 20. The one exception is a lone "0" followed by "x" or
   "X", which switches to radix 16.
   */
  lemma {:induction false} ParsePrefix(d: string, t: string)
    requires |d| > 0 && forall i :: 0 <= i < |d| ==> IsDigit(d[i], 10)
    requires |t| == 0 || !IsDigit(t[0], 10)
    requires d != "0" || |t| == 0 || (t[0] != 'x' && t[0] != 'X')
    ensures ParseInt(Some(d + t)) == Int(DigitsValue(d, 10))
  {
    var s := d + t;
    assert s[0] == d[0] && !IsSpace(s[0]) && s[0] != '-' && s[0] != '+';
    assert TrimStart(s) == s;
    assert !(|s| >= 2 && s[0] == '0' && (s[1] == 'x' || s[1] == 'X')) by {
      if |d| >= 2 {
        assert s[1] == d[1];
      } else if |s| >= 2 {
        assert s[1] == t[0];
      }
    }
    DigitRunOfPrefix(d, t, 10);
  }

  /** One leading sign: "-" negates what the digits after it give, "+" keeps it. */
  lemma {:induction false} ParseSigned(sign: char, d: string, t: string)
    requires sign == '-' || sign == '+'
    requires |d| > 0 && forall i :: 0 <= i < |d| ==> IsDigit(d[i], 10)
    requires |t| == 0 || !IsDigit(t[0], 10)
    requires d != "0" || |t| == 0 || (t[0] != 'x' && t[0] != 'X')
    ensures ParseInt(Some([sign] + d + t)) == Int(if sign == '-' then -DigitsValue(d, 10) else DigitsValue(d, 10))
  {
    var s := d + t;
    var m := [sign] + d + t;
    assert m == [sign] + s;
    assert !IsSpace(m[0]);
    assert TrimStart(m) == m;
    assert m[1..] == s;
    assert s[0] == d[0];
    assert !(|s| >= 2 && s[0] == '0' && (s[1] == 'x' || s[1] == 'X')) by {
      if |d| >= 2 {
        assert s[1] == d[1];
      } else if |s| >= 2 {
        assert s[1] == t[0];
      }
    }
    DigitRunOfPrefix(d, t, 10);
  }

  /** "0x" or "0X" switches to radix 16 and reads the hexadecimal digits after it; with none, the result is NaN. */
  lemma {:induction false} ParseHex(x: char, h: string, t: string)
    requires x == 'x' || x == 'X'
    requires forall i :: 0 <= i < |h| ==> IsDigit(h[i], 16)
    requires |t| == 0 || !IsDigit(t[0], 16)
    ensures ParseInt(Some(['0', x] + h + t)) == if |h| == 0 then NaN else Int(DigitsValue(h, 16))
  {
    var m := ['0', x] + h + t;
    assert !IsSpace(m[0]) && m[0] != '-' && m[0] != '+';
    assert TrimStart(m) == m;
    assert m[2..] == h + t;
    DigitRunOfPrefix(h, t, 16);
  }

  /** One sign before text that starts with neither white space nor a sign: "-" negates what the text parses to, "+" keeps it. */
  lemma {:induction false} ParseSign(sign: char, u: string)
    requires sign == '-' || sign == '+'
    requires |u| > 0 && !IsSpace(u[0]) && u[0] != '-' && u[0] != '+'
    ensures ParseInt(Some([sign] + u)) == if sign == '-' then Negate(ParseInt(Some(u))) else ParseInt(Some(u))
  {
    var m := [sign] + u;
    assert TrimStart(m) == m by {
      assert !IsSpace(m[0]);
    }
    assert TrimStart(u) == u;
    assert m[0] == sign && m[1..] == u;
  }

  /** A sign before "0x" or "0X" applies to the hexadecimal value read after it: "-0x1A" is -26. */
  lemma {:induction false} ParseSignedHex(sign: char, x: char, h: string, t: string)
    requires sign == '-' || sign == '+'
    requires x == 'x' || x == 'X'
    requires forall i :: 0 <= i < |h| ==> IsDigit(h[i], 16)
    requires |t| == 0 || !IsDigit(t[0], 16)
    ensures ParseInt(Some([sign, '0', x] + h + t)) ==
      if |h| == 0 then NaN else Int(if sign == '-' then -DigitsValue(h, 16) else DigitsValue(h, 16))
  {
    var u := ['0', x] + h + t;
    assert [sign, '0', x] + h + t == [sign] + u;
    assert u[0] == '0';
    ParseSign(sign, u);
    ParseHex(x, h, t);
  }

  /** `parseInt` of the decimal rendering of n is n. */
  lemma {:induction false} ParseUnsignedDecimal(n: nat)
    ensures ParseInt(Some(Decimal(n))) == Int(n)
  {
    var s := Decimal(n);
    var none: string := [];
    assert s + none == s;
    DecimalValue(n);
    ParsePrefix(s, none);
  }

  /** `parseInt` of "-" and the decimal rendering of n is -n. */
  lemma {:induction false} ParseNegatedDecimal(n: nat)
    ensures ParseInt(Some("-" + Decimal(n))) == Int(-(n as int))
  {
    var s := Decimal(n);
    var none: string := [];
    assert ['-'] + s + none == "-" + s;
    DecimalValue(n);
    ParseSigned('-', s, none);
  }

  /** `parseInt` reads back what decimal rendering writes, for either sign. */
  lemma {:induction false} ParseDecimal(n: nat)
    ensures ParseInt(Some(Decimal(n))) == Int(n)
    ensures ParseInt(Some("-" + Decimal(n))) == Int(-(n as int))
  {
    ParseUnsignedDecimal(n);
    ParseNegatedDecimal(n);
  }
}

=== FILE: types.dfy ===
/**
 Shared value types of the chat server model: optional values, JavaScript
 truthiness and `String(...)` on string-or-undefined values, token claims, and
 the foreign collaborators (token signing and verification, password hashing,
 ObjectId validity) that the handlers call but whose internals are not modelled.
 */
module Types {

  datatype Option<+T> = None | Some(value: T)

  /** A value that is either a string or JavaScript `undefined`. */
  type JsString = Option<string>

  /** A user id as the handlers hold it: the token's `userId` claim, possibly undefined. */
  type UserRef = JsString

  /** A Socket.IO connection id. */
  type SocketId = string

  /** The string form of a Mongo ObjectId; a valid id is taken to be in canonical form. */
  type Oid = string

  /** Verified token payload: claim name to claim value. */
  type Claims = map<string, string>

  /** JavaScript truthiness of a string-or-undefined: defined and non-empty. */
  predicate Truthy(v: JsString) {
    v.Some? && v.value != ""
  }

  /** `a || b` on string-or-undefined values. */
  function Or(a: JsString, b: JsString): JsString {
    if Truthy(a) then a else b
  }

  /** `String(v)`: undefined becomes the text "undefined". */
  function Str(v: JsString): string {
    match v
    case Some(s) => s
    case None => "undefined"
  }

  /** Property access `claims.name`: undefined when the claim is absent. */
  function Claim(c: Claims, name: string): JsString {
    if name in c then Some(c[name]) else None
  }

  /** The index of the first element satisfying `hit`, as a scan in sequence order finds it; None when no element does. */
  function FindFirst<T>(s: seq<T>, hit: T -> bool): (r: Option<nat>)
    ensures r.Some? ==> r.value < |s| && hit(s[r.value])
    ensures r.Some? ==> forall j :: 0 <= j < r.value ==> !hit(s[j])
    ensures r.None? ==> forall j :: 0 <= j < |s| ==> !hit(s[j])
  {
    if |s| == 0 then None
    else if hit(s[0]) then Some(0)
    else
      match FindFirst(s[1..], hit)
      case None => None
      case Some(k) => Some(k + 1)
  }

  /**
   The foreign calls the handlers make, as uninterpreted functions:
   `jwt.verify` (None when it throws), `jwt.sign`, `bcrypt.hash`,
   `bcrypt.compare`, and `mongoose.Types.ObjectId.isValid`, which the model also
   uses for whether `new ObjectId(s)` succeeds on a string.
   */
  datatype Env = Env(
    verify: string -> Option<Claims>,
    sign: Claims -> string,
    hash: string -> string,
    compare: (string, string) -> bool,
    validId: string -> bool)

  /** The claims a verified token carries: those it was signed with, plus at most the `iat` and `exp` claims `jwt.sign` adds. */
  ghost predicate VerifiedAs(r: Option<Claims>, c: Claims) {
    && r.Some?
    && (forall k :: k in c ==> k in r.value && r.value[k] == c[k])
    && (forall k :: k in r.value && k !in c ==> k == "iat" || k == "exp")
  }

  /** An idealised signer: its tokens are non-empty, contain no space, and verify to the signed claims (no expiry). */
  ghost predicate SignVerifies(env: Env) {
    forall c: Claims :: env.sign(c) != "" && ' ' !in env.sign(c) && VerifiedAs(env.verify(env.sign(c)), c)
  }
}
